=== FILE: README.md ===
# srp_tasks — a verified model of the task manager core

`srp_tasks.py` is a small to-do list manager. A `TaskManager` keeps an
in-memory list of `Task` records and a next id. It saves the whole list
through a `TaskStorage` after every change. The one storage implementation,
`FileTaskStorage`, writes one comma-separated line per task. It escapes commas
in the description as the six characters `\u002C` and skips lines it cannot
parse when reading. `Priority.from_str` maps optional free text to `low`,
`medium` or `high`, and falls back to `medium` for anything else.

This project models that core as pure Dafny functions over immutable values
and proves properties about them:

| file | module | models |
|---|---|---|
| `wrappers.dfy` | `Wrappers` | `Optional[T]` as `Option<T>` |
| `text.dfy` | `Text` | `str.strip`, `rstrip(c)`, `lower`, `replace`, `split` and `join` (ASCII whitespace and case) |
| `numerals.dfy` | `Numerals` | `str(int)` and `int(str)` |
| `priority.dfy` | `Priorities` | `Priority` and `Priority.from_str` |
| `task.dfy` | `Tasks` | `Task` and `Task.mark_completed` |
| `codec.dfy` | `Codec` | one task line: the body of the `save_tasks` loop and the body of the `load_tasks` loop |
| `storage.dfy` | `Storage` | the whole file: text-mode line reading, `load_tasks`, `save_tasks` |
| `registry.dfy` | `Registry` | `TaskManager`: `__init__`, `add_task`, `list_tasks`, `get_task_by_id`, `mark_task_completed`, `remove_task` |
| `scenarios.dfy` | `Scenarios` | manager and file together: start-up, restart, end to end |

How the model maps the program:

- **The file.** The file is `Option<string>`, where `None` means the file
  does not exist. `SaveTasks` returns the complete new contents of the file.
  `LoadTasks` reads the contents back:
  1. Text mode's universal newlines turn `\r\n` and a lone `\r` into `\n`.
  2. The text is cut into lines that keep their `\n`.
  3. Each line gets `rstrip("\n")` and is then split on commas.
- **The manager.** `TaskManager` mutates itself and calls
  `storage.save_tasks`. In the model each operation instead returns an
  `Outcome(manager, result, saved)`. `saved == Some(tasks)` means
  `save_tasks` was called exactly once, with exactly that list.
  `saved == None` means storage was not touched.
- **The `priority` argument.** `add_task` accepts a `Priority` or any object.
  The model takes a `PriorityArg`, which is either `Given(priority)` or
  `Raw(text)`.

The round trip holds only under conditions the program does not check.
`decode(encode(t)) == t` and "save then load gives the same list" need a task
that is `LineSafe` and `Persistable`:

- the description does not already contain the text `\u002C`;
- the due date is absent, or it is non-empty, is not the text `None`, and has
  no comma;
- neither the description nor the due date holds `\n` or `\r`.

A lemma shows that each condition is needed:

- `TokenInDescriptionIsNotKept`: a description `\u002C` comes back as `,`.
- `SentinelDueDateIsLost`: a due date `""` or `"None"` comes back absent.
- `CommaInDueDateDropsLine`: a comma in the due date makes the line have six
  or more fields, so it is dropped.
- `LineBreakIsNotRestored`: a line break in either field means the reloaded
  list differs.

These conditions are exact, not merely sufficient. An encoded line decodes back
to its task exactly when the task is `LineSafe` (`LineRoundTripExactly`), and a
list survives saving and loading exactly when every task is `Persistable`
(`SaveLoadRoundTripExactly`).

Reloading is unconditionally idempotent. Whatever a file holds, saving what
was loaded and loading again gives the same tasks (`ReloadIsIdempotent`).

`mark_task_completed` saves whenever the id is found. It saves even when the
task was already completed, and the model does the same.

## Model

| member | source | states |
|---|---|---|
| `Priorities.FromStr` | srp_tasks.py:32-42 | absent or empty text gives `MEDIUM`; otherwise the result is `LOW` exactly when the stripped, lower-cased text is `l`/`low`, and `HIGH` exactly when it is `h`/`hi`/`high`; everything else is `MEDIUM` |
| `Priorities.Lookup` | srp_tasks.py:36-42 | the alias table: `LOW` iff a low alias, `HIGH` iff a high alias, `MEDIUM` iff neither |
| `Priorities.FromStrOfValue` | srp_tasks.py:26-42 | parsing a priority's own value gives that priority back |
| `Priorities.FromStrIgnoresCase` | srp_tasks.py:35 | texts equal up to ASCII case parse to the same priority |
| `Priorities.FromStrIgnoresPadding` | srp_tasks.py:35 | whitespace on either side of the text does not change the priority |
| `Priorities.FromStrUpperHi` | srp_tasks.py:35-41 | `"HI"` parses as `HIGH` |
| `Priorities.FromStrCapitalLow` | srp_tasks.py:35-37 | `"Low"` parses as `LOW` |
| `Priorities.FromStrPaddedLow` | srp_tasks.py:35-37 | `"Low"` with any whitespace around it, as in `" Low "`, parses as `LOW` |
| `Priorities.FromStrBogus` | srp_tasks.py:35-42 | an unknown word falls back to `MEDIUM` |
| `Tasks.MarkCompleted` | srp_tasks.py:94-95 | the task becomes completed; id, description, due date and priority are unchanged |
| `Text.StripLeft` | srp_tasks.py:35 | the result is a suffix of the input, everything removed is whitespace, and it does not start with whitespace |
| `Text.StripRight` | srp_tasks.py:35 | the result is a prefix of the input, everything removed is whitespace, and it does not end with whitespace |
| `Text.StripIgnoresPadding` | srp_tasks.py:35 | `strip()` is unaffected by whitespace added on either side |
| `Text.StripTrailing` | srp_tasks.py:60 | `rstrip("\n")` keeps a prefix, removes only `\n`s, and leaves no trailing `\n` |
| `Text.StripTrailingOne` | srp_tasks.py:60 | a single terminator after text that does not end in `\n` is removed |
| `Text.Lower` | srp_tasks.py:35 | same length; each character is lower-cased |
| `Text.NormalizeIgnoresCase` | srp_tasks.py:35 | `strip().lower()` gives the same text for inputs equal up to case |
| `Text.OccursOneChar` | srp_tasks.py:78 | a one-character pattern occurs exactly when the character is in the text |
| `Text.Replace` | srp_tasks.py:65 | text without the pattern is unchanged; a one-character pattern missing from the replacement is gone from the result; no new characters appear |
| `Text.Split` | srp_tasks.py:60 | at least one piece, and no piece contains the separator |
| `Text.JoinSplit` | srp_tasks.py:60 | joining the pieces with the separator gives the text back |
| `Text.SplitJoin` | srp_tasks.py:60 | splitting joined separator-free pieces gives the pieces back |
| `Text.SplitConcat` | srp_tasks.py:60 | splitting at one separator splits each side independently |
| `Text.SplitNoSeparator` | srp_tasks.py:60 | text without the separator is a single field |
| `Text.SplitWithSeparator` | srp_tasks.py:60 | text with a separator gives at least two fields |
| `Text.SplitKeepsOut` | srp_tasks.py:60 | a character absent from the text is absent from every field |
| `Numerals.NatToString` | srp_tasks.py:79 | `str(n)` is non-empty decimal digits with no leading zero |
| `Numerals.IntToString` | srp_tasks.py:79 | `str(i)` is non-empty, starts with `-` or a digit, ends in a digit, and every character is `-` or a digit |
| `Numerals.ParseSigned` | srp_tasks.py:64 | a value exactly for digits, or a sign followed by digits |
| `Numerals.TrimIntLeft` | srp_tasks.py:64 | the leading whitespace `int()` skips (space and `\t` to `\r`) is removed: the result is a suffix, what was cut is all such whitespace, and the result does not start with it |
| `Numerals.TrimIntRight` | srp_tasks.py:64 | the same for trailing whitespace: a prefix, what was cut is all whitespace, and the result does not end with it |
| `Numerals.ParseInt` | srp_tasks.py:64 | `int()` gives a value exactly when the text, without surrounding space and `\t` to `\r`, is digits or a sign followed by digits |
| `Numerals.IntRejectsSeparatorPrefix` | srp_tasks.py:64 | a leading `\x1c` to `\x1f` counts as whitespace for `strip()` but makes `int()` reject the text |
| `Numerals.ParseIntOfIntToString` | srp_tasks.py:64-79 | in the model, `ParseInt` inverts `IntToString` on every integer, so an id read back is the id written (CPython's 4300-digit limit is not modelled; see "Left out") |
| `Codec.Escape` | srp_tasks.py:78 | the escaped description has no comma |
| `Codec.UnescapeEscape` | srp_tasks.py:65-78 | un-escaping undoes escaping for every description without the token |
| `Codec.EscapeKeepsPlainPrefix` | srp_tasks.py:78 | escaping changes only commas, so a comma- and backslash-free prefix of the result was a prefix of the input |
| `Codec.UnescapeKeepsPlainPrefix` | srp_tasks.py:65 | un-escaping changes only tokens, so a comma- and backslash-free prefix of the result was a prefix of the field |
| `Codec.Unescape` | srp_tasks.py:65 | a field without the token is unchanged, and the result never contains the token |
| `Codec.ReplacingTokensLeavesNone` | srp_tasks.py:65 | replacing every token by a comma leaves no token behind |
| `Codec.EscapeRoundTripExactly` | srp_tasks.py:65-78 | un-escaping gives back the escaped description exactly when the description does not contain the token |
| `Codec.TokenBecomesComma` | srp_tasks.py:65-78 | the token text itself survives escaping and is un-escaped to `,` |
| `Codec.EncodeLineSplit` | srp_tasks.py:60-79 | an encoded line splits into id, escaped description, the due date's pieces, flag, priority |
| `Codec.EncodeLineFields` | srp_tasks.py:60-79 | with a comma-free due date an encoded line has exactly five fields |
| `Codec.EncodeLine` | srp_tasks.py:78-79 | the line starts with `str(id)` and a comma, is non-empty, and does not end in `\n` |
| `Codec.DueDateFromText` | srp_tasks.py:66-67 | absent exactly for `""` and `"None"`, the text otherwise |
| `Codec.DecodeFields` | srp_tasks.py:60-72 | a task exactly when there are 4 or 5 fields and `int` accepts the first; its id is that number, its description the second field un-escaped, its due date the third field with `""` and `"None"` read as absent, completed exactly when the stripped, lower-cased fourth field is `true`, and its priority `from_str` of the fifth field, or `MEDIUM` with four fields |
| `Codec.DecodedTaskKeepsOut` | srp_tasks.py:60-70 | a non-comma character missing from a line is missing from the decoded description and due date |
| `Codec.BoolTextRoundTrip` | srp_tasks.py:68-79 | `str(completed)` is read back as `completed` |
| `Codec.EncodeLineStripsToItself` | srp_tasks.py:60-79 | `rstrip("\n")` recovers the encoded line from the written line |
| `Codec.DecodeEncodedLine` | srp_tasks.py:59-79 | decoding an encoded line keeps id, flag and priority; description and due date pass through un-escaping and the due-date sentinels |
| `Codec.LineRoundTrip` | srp_tasks.py:59-79 | a line-safe task decodes back to itself, with or without the terminator |
| `Codec.DecodeLine` | srp_tasks.py:60-72 | every task decoded from a line is line-safe |
| `Codec.LineRoundTripExactly` | srp_tasks.py:59-79 | an encoded line decodes back to its task, with or without the terminator, exactly when the task is line-safe |
| `Codec.TokenInDescriptionIsNotKept` | srp_tasks.py:65-78 | a description equal to the token comes back as `,` |
| `Codec.SentinelDueDateIsLost` | srp_tasks.py:66-79 | a due date `""` or `"None"` comes back absent |
| `Codec.CommaInDueDateDropsLine` | srp_tasks.py:60-79 | a due date with a comma makes the line have six or more fields and be skipped |
| `Storage.TranslateNewlines` | srp_tasks.py:58 | no `\r` remains; text without `\r` is unchanged |
| `Storage.TranslateNewlinesIsReplace` | srp_tasks.py:58 | universal newlines agree with the reference: first every `\r\n` becomes `\n`, then every remaining `\r` becomes `\n` |
| `Storage.FirstLineLength` | srp_tasks.py:59 | the first line is non-empty, has no `\n` before its end, and ends in `\n` unless it is the last |
| `Storage.ReadLines` | srp_tasks.py:59 | the lines put back together are the text; lines are non-empty; all but the last end in `\n`; `\n` appears only at a line's end; no `\r` when the text has none |
| `Storage.ReadLinesOfLine` | srp_tasks.py:59 | a newline-free line followed by `\n` is read as one line, then the rest |
| `Storage.LoadLines` | srp_tasks.py:59-73 | at most one task per line |
| `Storage.LoadedTaskHasLine` | srp_tasks.py:59-73 | every loaded task is the decoding of one of the lines |
| `Storage.LoadLinesAppend` | srp_tasks.py:59-73 | loading keeps line order: lines of a concatenation load as the concatenated loads |
| `Storage.LoadOneLine` | srp_tasks.py:59-72 | a line loads as its task when it decodes, and as nothing otherwise |
| `Storage.EncodeLineHasNoBreak` | srp_tasks.py:79 | a persistable task's line has no `\n` or `\r` |
| `Storage.SaveTasksHasNoCarriageReturn` | srp_tasks.py:75-79 | a file of persistable tasks has no `\r` |
| `Storage.SaveTasks` | srp_tasks.py:75-80 | the file is empty exactly when there are no tasks, and otherwise ends in `\n` |
| `Storage.SaveTasksJoinsSavedLines` | srp_tasks.py:75-80 | the file written is the written lines, one per task, put together in order |
| `Storage.ReadSavedLines` | srp_tasks.py:59-79 | a file of persistable tasks reads back as exactly the lines written, one per task |
| `Storage.LoadSavedLines` | srp_tasks.py:59-79 | the lines written for line-safe tasks load as those tasks, in order |
| `Storage.SaveLoadRoundTrip` | srp_tasks.py:52-80 | saving persistable tasks and loading the file gives the same list in the same order |
| `Storage.LoadTasks` | srp_tasks.py:52-73 | a missing file loads as no tasks, and every task loaded from any file is persistable |
| `Storage.TwoFieldLineIsDropped` | srp_tasks.py:60-62 | a two-field line is skipped |
| `Storage.LineBodyHasNoBreak` | srp_tasks.py:59-60 | a line with no line break before its end has none once its trailing `\n`s are removed |
| `Storage.ReadLineBodyHasNoBreak` | srp_tasks.py:58-60 | a line read from the file has no line break once `rstrip("\n")` is applied |
| `Storage.LoadedTasksHaveNoLineBreak` | srp_tasks.py:52-73 | no loaded description or due date contains `\n` or `\r` |
| `Storage.LineBreakIsNotRestored` | srp_tasks.py:52-80 | a list with a line break in a description or due date does not survive save and load |
| `Storage.LoadedTasksArePersistable` | srp_tasks.py:52-73 | every loaded task is persistable |
| `Storage.ReloadIsIdempotent` | srp_tasks.py:52-80 | for every file, saving what was loaded and loading again gives the same list |
| `Storage.SaveLoadRoundTripExactly` | srp_tasks.py:52-80 | saving then loading gives the list back exactly when every task is persistable |
| `Storage.MalformedLineIsSkipped` | srp_tasks.py:59-72 | a good line followed by a two-field line loads as just the good line's task |
| `Registry.MaxId` | srp_tasks.py:111 | the maximum id: an upper bound on all ids that some task has |
| `Registry.Init` | srp_tasks.py:108-111 | the tasks are the loaded list; the next id is 1 for none, otherwise one past an id that exists and above every id |
| `Registry.ResolvePriority` | srp_tasks.py:120 | a `Priority` argument is kept as is; anything else, text or none, goes through `from_str`, so no priority gives `MEDIUM` |
| `Registry.ResolveValueAsGiven` | srp_tasks.py:120 | passing a priority's text value gives the same priority as passing the priority |
| `Registry.AddTask` | srp_tasks.py:114-126 | the new task has the next id, the given fields, is not completed, is appended last; next id goes up by one; the new list is saved once |
| `Registry.InitAfterAdd` | srp_tasks.py:111-122 | restarting from the list an add leaves behind gives back the running manager, next id included |
| `Registry.ListTasks` | srp_tasks.py:128-129 | `list_tasks` gives the manager's tasks in their stored order; what that list holds after adds is stated by `Registry.ListAfterAdds` |
| `Registry.ListAfterAdds` | srp_tasks.py:114-129 | after a run of adds, `list_tasks` gives the earlier tasks unchanged and in order, followed by one new task per add, in the order of the adds, with consecutive ids from the old next id and the add's description, due date and resolved priority, not completed |
| `Registry.RunIsAddAll` | srp_tasks.py:114-126 | a session of adds only is `add_task` applied one after another |
| `Registry.AddAllAppends` | srp_tasks.py:114-126 | each add appends exactly one task at the end and moves the next id up by one |
| `Registry.FirstIndex` | srp_tasks.py:131-132 | absent exactly when no task has the id, otherwise the position of the first task with it |
| `Registry.GetTaskById` | srp_tasks.py:131-132 | `None` exactly when no task has the id, otherwise the first task with it |
| `Registry.MarkTaskCompleted` | srp_tasks.py:134-141 | true exactly when the id exists; if not, nothing changes and nothing is saved; if so, only the first task with the id is completed and the list is saved once |
| `Registry.Without` | srp_tasks.py:145 | keeps exactly the tasks with another id; same length exactly when no task had the id |
| `Registry.WithoutAppend` | srp_tasks.py:145 | the filter keeps order (it distributes over concatenation) |
| `Registry.WithoutNoMatch` | srp_tasks.py:145 | with no task of that id the filter changes nothing |
| `Registry.RemoveTask` | srp_tasks.py:143-151 | true exactly when the id exists; the tasks become the filtered list; if false nothing changes and nothing is saved, if true the list is saved once |
| `Registry.ApplyKeepsIdsBelowNext` | srp_tasks.py:114-151 | each operation keeps every id below the next id, even when the loaded ids repeat |
| `Registry.ApplyKeepsInvariants` | srp_tasks.py:114-151 | from unique ids, each operation keeps ids unique and below the next id, and never lowers the next id |
| `Registry.WithoutKeepsInvariants` | srp_tasks.py:145 | filtering keeps ids unique and below the bound |
| `Registry.RunKeepsIdsBelowNext` | srp_tasks.py:108-151 | over any session, every id stays below the next id, whatever ids the file held |
| `Registry.RunKeepsInvariants` | srp_tasks.py:114-151 | from unique ids, any sequence of operations keeps ids unique and below the next id, and never lowers the next id |
| `Registry.RunNeverLowersNextId` | srp_tasks.py:114-151 | no sequence of operations lowers the next id |
| `Registry.AssignedIdNeverReused` | srp_tasks.py:114-151 | from any manager, a task added after any operations, removals included, gets a larger id than an earlier one |
| `Scenarios.FreshStart` | srp_tasks.py:54-111 | a missing file starts a manager with no tasks and next id 1 |
| `Scenarios.NextIdAfterStoredIds` | srp_tasks.py:111-121 | stored ids 3, 7, 2 make the next id 8, and the next task added gets it |
| `Scenarios.AddWithTextPriority` | srp_tasks.py:120 | text priorities go through `from_str`: `"HI"` is `HIGH`, `"bogus"` is `MEDIUM` |
| `Scenarios.EndToEnd` | srp_tasks.py:108-141 | from an empty start, adding "Buy milk" with "low" lists one pending `LOW` task with id 1, and completing id 1 succeeds and completes it |
| `Scenarios.RestartAfterAdd` | srp_tasks.py:52-126 | after an add, loading the saved file gives the in-memory list and a restarted manager equals the running one |
| `Scenarios.SavedFileMatchesMemory` | srp_tasks.py:52-151 | after a completion or removal that saves, loading the file gives the in-memory list |
| `Scenarios.RestartReusesRemovedId` | srp_tasks.py:108-151 | ids are not reused in a session but are after a restart: removing the only task then restarting hands out id 1 again |

## Left out

- Printing: the `print` calls, including the notices in `load_tasks`, `save_tasks`, `mark_completed` and the manager's operations, are not modelled. Their output has no effect on state; the one way a `print` changes behaviour is the integer formatting limit in the next line.
- `Registry.Init`, `Registry.MarkTaskCompleted`, `Registry.RemoveTask`, `Tasks.MarkCompleted`: the prints at srp_tasks.py lines 96, 112, 137, 147 and 150 format an id with an f-string, so under CPython's default 4300-digit limit they raise `ValueError` when that id has more than 4300 digits. The model has no such failure. For example, `mark_task_completed(10**4300)` raises at line 137, where `MarkTaskCompleted` returns false. Likewise, loading an id of 4300 nines makes `__init__` raise at line 112 on the next id `10**4300`, where `Init` returns a manager.
- `Task.__str__` (display only) and the `__main__` demo program are not modelled.
- The `TaskStorage` abstract base class: each manager operation returns the snapshot it saves instead of calling a storage object. Reading is a parameter (the file's text, or `None` when missing).
- File-system failures (`open` errors, permissions, a crash part-way through a write) and UTF-8 decoding errors are not modelled. The file text is given as a string.
- The default file name and `Path` handling are not modelled.
- Newline translation on write is not modelled. Text mode on a platform whose line separator is `\r\n` writes `\r\n`, and reading translates it back to `\n`, so loading is unaffected. The model writes `\n`.
- `Numerals.ParseInt`: models `int()` as surrounding ASCII whitespace (space, `\t`, `\n`, `\v`, `\f`, `\r`), an optional sign and ASCII digits. Python's `int` also skips non-ASCII whitespace such as U+00A0 and U+3000, and accepts underscores between digits and non-ASCII digits; the model rejects all of these. Like `int`, it does not skip `\x1c` to `\x1f`. It has no digit limit: CPython (3.11 on, and 3.10.7, 3.9.14, 3.8.14, 3.7.14) raises `ValueError` for more than 4300 digits by default, so `load_tasks` skips a line whose id has more digits, where the model loads it.
- `Text.IsSpace`, `Text.Lower`: ASCII only (`IsSpace` is space, `\t` to `\r` and `\x1c` to `\x1f`). Python's `strip()` also removes non-ASCII whitespace, and `lower()` also lower-cases non-ASCII letters. These functions serve only `from_str` (line 35) and the completed flag (line 68), so the gap affects only priority and flag parsing of non-ASCII text; `int()` uses its own whitespace set, `Numerals.IsIntSpace`.
- `Priorities.FromStr`: takes optional text. `from_str` also accepts any object and applies `str(value)` to it; only `None` and strings reach it through `add_task` and `load_tasks` in the model.
- Object identity and aliasing are not modelled. Python's `get_task_by_id` returns the task object itself, and `list_tasks` returns a shallow copy whose elements are shared. In the model tasks are values.
- `(t.description or "")` in `save_tasks`: descriptions are always strings in the model, so `or ""` changes nothing.
- `Numerals.IntToString`: has no digit limit. Under CPython's default 4300-digit limit, `f"{t.id}"` in `save_tasks` raises for an id of more than 4300 digits, after the file has been truncated; the model writes the line. Such an id needs a loaded 4300-digit id below the largest one, such as 99…98, and then enough adds for the next id to reach `10**4300`. A loaded id of 4300 nines does not lead there, because `__init__` already raises on printing the next id, as the line above says.
- Integer width: Python integers are unbounded, as are Dafny's, so no wrap-around is involved; only the decimal text is limited, as the `Numerals.ParseInt`, `Numerals.IntToString` and printing lines say.

=== FILE: codec.dfy ===
/**
  The one-line text form of a task written by `FileTaskStorage.save_tasks` and
  read back by `FileTaskStorage.load_tasks`:

    <id>,<description with each comma escaped>,<due date or None>,<True|False>,<priority value>
 */
module Codec {
  import opened Wrappers
  import opened Text
  import opened Numerals
  import opened Priorities
  import opened Tasks

  /** The field delimiter. */
  const Separator: char := ','

  /** The six characters `\u002C` that stand for a comma inside a description. */
  const CommaToken: string := "\\u002C"

  /** The text written for an absent due date (Python's `str(None)`). */
  const NoneText: string := "None"

  // ---------------------------------------------------------------------------
  // Escaping the description
  // ---------------------------------------------------------------------------

  /** Every comma of the description becomes the comma token. */
  function Escape(description: string): (e: string)
    ensures Separator !in e
  {
    Replace(description, [Separator], CommaToken)
  }

  /**
    Every comma token of the field becomes a comma. A field without the token
    is unchanged, and no token is left in the result.
   */
  function Unescape(field: string): (d: string)
    ensures !Occurs(CommaToken, field) ==> d == field
    ensures !Occurs(CommaToken, d)
  {
    ReplacingTokensLeavesNone(field);
    Replace(field, CommaToken, [Separator])
  }

  /**
    A prefix free of commas and backslashes survives escaping unchanged: an
    escaped description starts with such text only if the description does.
   */
  lemma {:induction false} EscapeKeepsPlainPrefix(p: string, d: string)
    requires Separator !in p && '\\' !in p
    requires p <= Escape(d)
    ensures p <= d
    decreases |p|
  {
    if |p| > 0 {
      assert |d| > 0;
      assert Escape(d)[0] == if d[0] == Separator then '\\' else d[0];
      assert Escape(d) == [d[0]] + Escape(d[1..]);
      assert p[1..] <= Escape(d[1..]);
      EscapeKeepsPlainPrefix(p[1..], d[1..]);
    }
  }

  /**
    Un-escaping undoes escaping for every description that does not already
    contain the comma token. The token has no border (no proper prefix of it is
    also a suffix), so no token can straddle an escaped comma and its
    neighbours.
   */
  lemma {:induction false} UnescapeEscape(d: string)
    requires !Occurs(CommaToken, d)
    ensures Unescape(Escape(d)) == d
    decreases |d|
  {
    if |d| > 0 {
      var rest := Escape(d[1..]);
      UnescapeEscape(d[1..]);
      if d[0] == Separator {
        assert Escape(d) == CommaToken + rest;
        assert (CommaToken + rest)[|CommaToken|..] == rest;
        assert Unescape(Escape(d)) == [Separator] + d[1..];
      } else {
        assert Escape(d) == [d[0]] + rest;
        if CommaToken <= Escape(d) {
          assert "u002C" <= rest;
          EscapeKeepsPlainPrefix("u002C", d[1..]);
          assert false;
        }
        assert Unescape(Escape(d)) == [d[0]] + d[1..];
      }
    }
  }

  /**
    A prefix free of commas and backslashes survives un-escaping unchanged: an
    un-escaped field starts with such text only if the field does.
   */
  lemma {:induction false} UnescapeKeepsPlainPrefix(p: string, f: string)
    requires Separator !in p && '\\' !in p
    requires p <= Replace(f, CommaToken, [Separator])
    ensures p <= f
    decreases |p|
  {
    if |p| > 0 {
      var u := Replace(f, CommaToken, [Separator]);
      assert |f| > 0;
      assert u[0] == if CommaToken <= f then Separator else f[0];
      assert u == [f[0]] + Replace(f[1..], CommaToken, [Separator]);
      assert p[1..] <= Replace(f[1..], CommaToken, [Separator]);
      UnescapeKeepsPlainPrefix(p[1..], f[1..]);
    }
  }

  /** Replacing the comma tokens never leaves one behind, whatever the field holds. */
  lemma {:induction false} ReplacingTokensLeavesNone(f: string)
    ensures !Occurs(CommaToken, Replace(f, CommaToken, [Separator]))
    decreases |f|
  {
    if |f| > 0 {
      ReplacingTokensLeavesNone(f[1..]);
      if CommaToken <= f {
        ReplacingTokensLeavesNone(f[|CommaToken|..]);
        assert Replace(f, CommaToken, [Separator]) == [Separator] + Replace(f[|CommaToken|..], CommaToken, [Separator]);
      } else {
        var rest := Replace(f[1..], CommaToken, [Separator]);
        assert Replace(f, CommaToken, [Separator]) == [f[0]] + rest;
        if CommaToken <= [f[0]] + rest {
          assert "u002C" == CommaToken[1..] <= ([f[0]] + rest)[1..] == rest;
          UnescapeKeepsPlainPrefix("u002C", f[1..]);
          assert false;
        }
      }
    }
  }

  /**
    Escaping then un-escaping gives the description back exactly when it does
    not contain the comma token.
   */
  lemma EscapeRoundTripExactly(d: string)
    ensures Unescape(Escape(d)) == d <==> !Occurs(CommaToken, d)
  {
    if !Occurs(CommaToken, d) {
      UnescapeEscape(d);
    }
  }

  /** A description that is the comma token itself comes back as a comma. */
  lemma TokenBecomesComma()
    ensures Unescape(Escape(CommaToken)) == ","
  {
    OccursOneChar(Separator, CommaToken);
    assert Escape(CommaToken) == CommaToken;
    assert CommaToken[|CommaToken|..] == [];
  }

  // ---------------------------------------------------------------------------
  // Encoding
  // ---------------------------------------------------------------------------

  /** Python's `str(due_date)`: `None` for an absent date. */
  function DueDateText(due: Option<string>): string {
    match due
    case None => NoneText
    case Some(d) => d
  }

  /** Python's `str(completed)`. */
  function BoolText(b: bool): string {
    if b then "True" else "False"
  }

  /**
    The body of the `save_tasks` loop, without the line terminator: it starts
    with the id and a comma, and ends with the priority's value, so never with
    a newline.
   */
  function EncodeLine(t: Task): (line: string)
    ensures IntToString(t.id) + [Separator] <= line
    ensures |line| > 0 && line[|line| - 1] != '\n'
  {
    IntToString(t.id) + [Separator] + Escape(t.description) + [Separator]
      + DueDateText(t.dueDate) + [Separator] + BoolText(t.completed) + [Separator]
      + t.priority.Value()
  }

  /**
    An encoded line splits into the id, the escaped description, the pieces of
    the due date, the flag and the priority: only the due date can contribute
    extra commas.
   */
  lemma EncodeLineSplit(t: Task)
    ensures Split(EncodeLine(t), Separator) ==
      [IntToString(t.id), Escape(t.description)] + Split(DueDateText(t.dueDate), Separator)
        + [BoolText(t.completed), t.priority.Value()]
  {
    var f0, f1, f2, f3, f4 :=
      IntToString(t.id), Escape(t.description), DueDateText(t.dueDate), BoolText(t.completed), t.priority.Value();
    var tail3 := f3 + [Separator] + f4;
    var tail2 := f2 + [Separator] + tail3;
    var tail1 := f1 + [Separator] + tail2;
    assert EncodeLine(t) == f0 + [Separator] + tail1;
    assert Separator !in f0 && Separator !in f3 && Separator !in f4;
    SplitFieldsAround(f0, f1, f2, f3, f4);
  }

  lemma SplitLastFields(f2: string, f3: string, f4: string)
    requires Separator !in f3 && Separator !in f4
    ensures Split(f2 + [Separator] + (f3 + [Separator] + f4), Separator) == Split(f2, Separator) + [f3, f4]
  {
    var tail3 := f3 + [Separator] + f4;
    assert Split(tail3, Separator) == [f3, f4] by {
      SplitConcat(f3, Separator, f4);
      SplitNoSeparator(f3, Separator);
      SplitNoSeparator(f4, Separator);
    }
    SplitConcat(f2, Separator, tail3);
  }

  lemma SplitTailFields(f1: string, f2: string, f3: string, f4: string)
    requires Separator !in f1 && Separator !in f3 && Separator !in f4
    ensures Split(f1 + [Separator] + (f2 + [Separator] + (f3 + [Separator] + f4)), Separator)
      == [f1] + Split(f2, Separator) + [f3, f4]
  {
    var tail2 := f2 + [Separator] + (f3 + [Separator] + f4);
    assert Split(f1 + [Separator] + tail2, Separator) == [f1] + Split(tail2, Separator) by {
      SplitConcat(f1, Separator, tail2);
      SplitNoSeparator(f1, Separator);
    }
    assert Split(tail2, Separator) == Split(f2, Separator) + [f3, f4] by { SplitLastFields(f2, f3, f4); }
    assert [f1] + (Split(f2, Separator) + [f3, f4]) == [f1] + Split(f2, Separator) + [f3, f4];
  }

  lemma SplitFieldsAround(f0: string, f1: string, f2: string, f3: string, f4: string)
    requires Separator !in f0 && Separator !in f1 && Separator !in f3 && Separator !in f4
    ensures Split(f0 + [Separator] + (f1 + [Separator] + (f2 + [Separator] + (f3 + [Separator] + f4))), Separator)
      == [f0, f1] + Split(f2, Separator) + [f3, f4]
  {
    var tail1 := f1 + [Separator] + (f2 + [Separator] + (f3 + [Separator] + f4));
    assert Split(f0 + [Separator] + tail1, Separator) == [f0] + Split(tail1, Separator) by {
      SplitConcat(f0, Separator, tail1);
      SplitNoSeparator(f0, Separator);
    }
    assert Split(tail1, Separator) == [f1] + Split(f2, Separator) + [f3, f4] by { SplitTailFields(f1, f2, f3, f4); }
    assert [f0] + ([f1] + Split(f2, Separator) + [f3, f4]) == [f0, f1] + Split(f2, Separator) + [f3, f4];
  }

  /** When the due date has no comma, an encoded line has exactly five fields. */
  lemma EncodeLineFields(t: Task)
    requires t.dueDate.None? || Separator !in t.dueDate.value
    ensures Split(EncodeLine(t), Separator) ==
      [IntToString(t.id), Escape(t.description), DueDateText(t.dueDate), BoolText(t.completed), t.priority.Value()]
  {
    EncodeLineSplit(t);
    SplitNoSeparator(DueDateText(t.dueDate), Separator);
  }

  // ---------------------------------------------------------------------------
  // Decoding
  // ---------------------------------------------------------------------------

  /** `parts[2] or None`, then `None` for the text `None`. */
  function DueDateFromText(field: string): (due: Option<string>)
    ensures due.None? <==> field == "" || field == NoneText
    ensures due.Some? ==> due.value == field
  {
    if field == "" || field == NoneText then None else Some(field)
  }

  /** `parts[3].strip().lower() == "true"`. */
  function CompletedFromText(field: string): bool {
    Normalize(field) == "true"
  }

  /**
    The fields of one line turned into a task, or `None` when the line is
    skipped: a field count other than 4 or 5, or an id that `int` rejects.
   */
  function DecodeFields(parts: seq<string>): (r: Option<Task>)
    ensures r.Some? <==> (|parts| == 4 || |parts| == 5) && ParseInt(parts[0]).Some?
    ensures r.Some? ==> r.value.id == ParseInt(parts[0]).value
    ensures r.Some? ==> r.value.description == Unescape(parts[1])
    ensures r.Some? ==> r.value.dueDate == DueDateFromText(parts[2])
    ensures r.Some? ==> (r.value.completed <==> Normalize(parts[3]) == "true")
    ensures r.Some? && |parts| == 4 ==> r.value.priority == Medium
    ensures r.Some? && |parts| == 5 ==> r.value.priority == FromStr(Some(parts[4]))
  {
    if |parts| != 4 && |parts| != 5 then None
    else
      match ParseInt(parts[0])
      case None => None
      case Some(id) =>
        var priority := if |parts| == 5 then FromStr(Some(parts[4])) else Medium;
        Some(Task(id, Unescape(parts[1]), DueDateFromText(parts[2]), CompletedFromText(parts[3]), priority))
  }

  /**
    The body of the `load_tasks` loop: one line as read, terminator included.
    Every task it yields is one whose own line decodes back to it.
   */
  function DecodeLine(line: string): (r: Option<Task>)
    ensures r.Some? ==> LineSafe(r.value)
  {
    DecodeFields(Split(StripTrailing(line, '\n'), Separator))
  }

  /**
    A character other than the comma that is not in the line (once its trailing
    newlines are removed) is in neither the description nor the due date decoded
    from it.
   */
  lemma DecodedTaskKeepsOut(line: string, c: char)
    requires c != Separator && c !in StripTrailing(line, '\n')
    requires DecodeLine(line).Some?
    ensures c !in DecodeLine(line).value.description
    ensures DecodeLine(line).value.dueDate.Some? ==> c !in DecodeLine(line).value.dueDate.value
  {
    var parts := Split(StripTrailing(line, '\n'), Separator);
    SplitKeepsOut(StripTrailing(line, '\n'), Separator, c);
    assert c !in parts[1] && c !in parts[2];
  }

  // ---------------------------------------------------------------------------
  // Round trip
  // ---------------------------------------------------------------------------

  /**
    What a task needs for its line to decode back to it: a description without
    the comma token, and a due date that is absent or a non-empty text other
    than `None` without a comma.
   */
  predicate LineSafe(t: Task) {
    && !Occurs(CommaToken, t.description)
    && (t.dueDate.Some? ==>
          t.dueDate.value != "" && t.dueDate.value != NoneText && Separator !in t.dueDate.value)
  }

  lemma BoolTextRoundTrip(b: bool)
    ensures CompletedFromText(BoolText(b)) == b
  {
    StripUnpadded(BoolText(b));
    var n := Lower(BoolText(b));
    if b {
      assert n[0] == 't' && n[1] == 'r' && n[2] == 'u' && n[3] == 'e';
      assert n == "true";
    } else {
      assert n[0] == 'f';
    }
  }

  /** An encoded line ends with the priority value, so `rstrip("\n")` leaves it alone. */
  lemma EncodeLineStripsToItself(t: Task)
    ensures StripTrailing(EncodeLine(t), '\n') == EncodeLine(t)
    ensures StripTrailing(EncodeLine(t) + "\n", '\n') == EncodeLine(t)
  {
    var line := EncodeLine(t);
    assert line[|line| - 1] == t.priority.Value()[|t.priority.Value()| - 1];
    assert (line + "\n")[..|line|] == line;
  }

  /**
    What decoding makes of an encoded line whose due date has no comma: the id,
    flag and priority come back as they were; the description and due date come
    back through `Unescape` and the due-date sentinels.
   */
  lemma DecodeEncodedLine(t: Task)
    requires t.dueDate.None? || Separator !in t.dueDate.value
    ensures DecodeLine(EncodeLine(t)) == DecodeLine(EncodeLine(t) + "\n")
    ensures DecodeLine(EncodeLine(t)) ==
      Some(t.(description := Unescape(Escape(t.description)),
              dueDate := DueDateFromText(DueDateText(t.dueDate))))
  {
    var fields := [IntToString(t.id), Escape(t.description), DueDateText(t.dueDate), BoolText(t.completed), t.priority.Value()];
    assert DecodeLine(EncodeLine(t)) == DecodeFields(fields) by {
      EncodeLineStripsToItself(t);
      EncodeLineFields(t);
    }
    assert DecodeLine(EncodeLine(t) + "\n") == DecodeFields(fields) by {
      EncodeLineStripsToItself(t);
      EncodeLineFields(t);
    }
    ParseIntOfIntToString(t.id);
    BoolTextRoundTrip(t.completed);
    FromStrOfValue(t.priority);
  }

  /** Decoding an encoded line gives back the task, with or without its terminator. */
  lemma LineRoundTrip(t: Task)
    requires LineSafe(t)
    ensures DecodeLine(EncodeLine(t)) == Some(t)
    ensures DecodeLine(EncodeLine(t) + "\n") == Some(t)
  {
    DecodeEncodedLine(t);
    UnescapeEscape(t.description);
    assert DueDateFromText(DueDateText(t.dueDate)) == t.dueDate;
    assert t.(description := t.description, dueDate := t.dueDate) == t;
  }

  /**
    An encoded line decodes back to its task exactly when the task is
    line-safe: every other task comes back changed or not at all.
   */
  lemma LineRoundTripExactly(t: Task)
    ensures DecodeLine(EncodeLine(t)) == Some(t) <==> LineSafe(t)
    ensures DecodeLine(EncodeLine(t) + "\n") == Some(t) <==> LineSafe(t)
  {
    if LineSafe(t) {
      LineRoundTrip(t);
    }
  }

  // ---------------------------------------------------------------------------
  // Where the round trip breaks
  // ---------------------------------------------------------------------------

  /** A description holding the comma token comes back with a comma in its place. */
  lemma TokenInDescriptionIsNotKept(t: Task)
    requires t.description == CommaToken
    requires t.dueDate.None? || Separator !in t.dueDate.value
    ensures DecodeLine(EncodeLine(t)) == Some(t.(description := ",", dueDate := DueDateFromText(DueDateText(t.dueDate))))
  {
    DecodeEncodedLine(t);
    TokenBecomesComma();
  }

  /** A due date given as the empty text or as `None` comes back absent. */
  lemma SentinelDueDateIsLost(t: Task)
    requires t.dueDate == Some("") || t.dueDate == Some(NoneText)
    requires !Occurs(CommaToken, t.description)
    ensures DecodeLine(EncodeLine(t)) == Some(t.(dueDate := None))
  {
    DecodeEncodedLine(t);
    UnescapeEscape(t.description);
  }

  /** A due date with a comma gives six or more fields, so the whole line is skipped. */
  lemma CommaInDueDateDropsLine(t: Task)
    requires t.dueDate.Some? && Separator in t.dueDate.value
    ensures |Split(EncodeLine(t), Separator)| >= 6
    ensures DecodeLine(EncodeLine(t)) == None
  {
    EncodeLineStripsToItself(t);
    EncodeLineSplit(t);
    SplitWithSeparator(t.dueDate.value, Separator);
  }
}

=== FILE: numerals.dfy ===
/**
  Python's `str(n)` and `int(s)` on integers, in decimal. `int` is modelled
  as: surrounding ASCII whitespace (space, \t, \n, \v, \f, \r), an optional
  sign, then one or more ASCII digits.
 */
module Numerals {
  import opened Wrappers
  import opened Text

  predicate IsDigit(c: char) {
    '0' <= c <= '9'
  }

  predicate AllDigits(s: string) {
    forall i :: 0 <= i < |s| ==> IsDigit(s[i])
  }

  function DigitChar(d: nat): (c: char)
    requires d < 10
    ensures IsDigit(c)
  {
    ('0' as int + d) as char
  }

  function DigitValue(c: char): (d: nat)
    requires IsDigit(c)
    ensures d < 10 && DigitChar(d) == c
  {
    c as int - '0' as int
  }

  /** `str(n)` for a non-negative `n`: its decimal digits, most significant first, no leading zero. */
  function NatToString(n: nat): (s: string)
    ensures |s| > 0 && AllDigits(s)
    ensures |s| > 1 ==> s[0] != '0'
    decreases n
  {
    if n < 10 then [DigitChar(n)] else NatToString(n / 10) + [DigitChar(n % 10)]
  }

  /** `str(i)`: a minus sign for negative numbers, then the digits. */
  function IntToString(i: int): (s: string)
    ensures |s| > 0 && IsDigit(s[|s| - 1])
    ensures s[0] == '-' || IsDigit(s[0])
    ensures forall k :: 0 <= k < |s| ==> s[k] == '-' || IsDigit(s[k])
  {
    if i < 0 then "-" + NatToString(-i) else NatToString(i)
  }

  /** The number a string of digits denotes. */
  function DigitsValue(s: string): nat
    requires AllDigits(s)
    decreases |s|
  {
    if |s| == 0 then 0 else DigitsValue(s[..|s| - 1]) * 10 + DigitValue(s[|s| - 1])
  }

  /** An optional sign followed by one or more digits. */
  predicate IsDecimalLiteral(s: string) {
    || (|s| > 0 && AllDigits(s))
    || (|s| > 1 && (s[0] == '-' || s[0] == '+') && AllDigits(s[1..]))
  }

  /** A signed decimal literal with no surrounding whitespace. */
  function ParseSigned(s: string): (r: Option<int>)
    ensures r.Some? <==> IsDecimalLiteral(s)
    ensures r.Some? && AllDigits(s) ==> r.value == DigitsValue(s)
    ensures r.Some? && s[0] == '+' ==> r.value == DigitsValue(s[1..])
    ensures r.Some? && s[0] == '-' ==> r.value == -(DigitsValue(s[1..]) as int)
  {
    if |s| > 0 && (s[0] == '-' || s[0] == '+') then
      if |s| > 1 && AllDigits(s[1..]) then
        var magnitude: int := DigitsValue(s[1..]);
        Some(if s[0] == '-' then -magnitude else magnitude)
      else None
    else if |s| > 0 && AllDigits(s) then Some(DigitsValue(s))
    else None
  }

  /**
    The whitespace `int` skips around the digits: only space and \t to \r.
    Unlike `str.strip`, it keeps \x1c to \x1f. `TrimIntLeft` and `TrimIntRight`
    below are `Text.StripLeft` and `Text.StripRight` with this predicate in
    place of `Text.IsSpace`, and carry the same contracts.
   */
  predicate IsIntSpace(c: char) {
    c == ' ' || ('\t' <= c <= '\r')
  }

  /** Drops the leading whitespace `int` skips. */
  function TrimIntLeft(s: string): (r: string)
    ensures |r| <= |s| && r == s[|s| - |r|..]
    ensures forall i :: 0 <= i < |s| - |r| ==> IsIntSpace(s[i])
    ensures |r| > 0 ==> !IsIntSpace(r[0])
    decreases |s|
  {
    if |s| > 0 && IsIntSpace(s[0]) then TrimIntLeft(s[1..]) else s
  }

  /** Drops the trailing whitespace `int` skips. */
  function TrimIntRight(s: string): (r: string)
    ensures |r| <= |s| && r == s[..|r|]
    ensures forall i :: |r| <= i < |s| ==> IsIntSpace(s[i])
    ensures |r| > 0 ==> !IsIntSpace(r[|r| - 1])
    decreases |s|
  {
    if |s| > 0 && IsIntSpace(s[|s| - 1]) then TrimIntRight(s[..|s| - 1]) else s
  }

  /** The text between the leading and the trailing whitespace `int` skips. */
  function TrimIntSpace(s: string): string {
    TrimIntRight(TrimIntLeft(s))
  }

  /**
    `int(s)`: `None` stands for the `ValueError` Python raises. It succeeds
    exactly when the text, without the whitespace `int` skips, is a decimal
    literal.
   */
  function ParseInt(s: string): (r: Option<int>)
    ensures r.Some? <==> IsDecimalLiteral(TrimIntSpace(s))
  {
    ParseSigned(TrimIntSpace(s))
  }

  /**
    `int` does not skip the separators \x1c to \x1f, which `strip` counts as
    whitespace: `int("\x1c1")` fails, whatever follows the separator.
   */
  lemma IntRejectsSeparatorPrefix(c: char, s: string)
    requires '\U{1C}' <= c <= '\U{1F}'
    ensures IsSpace(c)
    ensures ParseInt([c] + s) == None
  {
    var u := [c] + s;
    assert u[0] == c && !IsIntSpace(c);
    assert TrimIntLeft(u) == u;
    var t := TrimIntRight(u);
    if |t| > 0 {
      assert t[0] == c by { assert t == u[..|t|]; }
      assert !IsDigit(t[0]) && t[0] != '-' && t[0] != '+';
    }
    assert !IsDecimalLiteral(t);
  }

  /** Text with no int-skipped whitespace at either end is its own trimmed form. */
  lemma TrimIntSpaceUnpadded(s: string)
    requires |s| > 0 && !IsIntSpace(s[0]) && !IsIntSpace(s[|s| - 1])
    ensures TrimIntSpace(s) == s
  {
  }

  lemma {:induction false} DigitsValueOfNatToString(n: nat)
    ensures DigitsValue(NatToString(n)) == n
    decreases n
  {
    if n >= 10 {
      var s := NatToString(n);
      assert s[..|s| - 1] == NatToString(n / 10);
      DigitsValueOfNatToString(n / 10);
    }
  }

  /** `int(str(i)) == i` for every integer. */
  lemma ParseIntOfIntToString(i: int)
    ensures ParseInt(IntToString(i)) == Some(i)
  {
    var s := IntToString(i);
    TrimIntSpaceUnpadded(s);
    if i < 0 {
      assert s[1..] == NatToString(-i);
      DigitsValueOfNatToString(-i);
    } else {
      DigitsValueOfNatToString(i);
    }
  }
}

=== FILE: priority.dfy ===
/** The three task priorities and the lenient parser that maps any optional text to one of them. */
module Priorities {
  import opened Wrappers
  import opened Text

  datatype Priority = Low | Medium | High {

    /** The enum member's value, as written to the task file. */
    function Value(): string {
      match this
      case Low => "low"
      case Medium => "medium"
      case High => "high"
    }
  }

  /** `v` is one of the normalised spellings accepted for `p`. */
  predicate IsAlias(p: Priority, v: string) {
    match p
    case Low => v == "l" || v == "low"
    case Medium => v == "m" || v == "med" || v == "medium"
    case High => v == "h" || v == "hi" || v == "high"
  }

  /** The alias table: the priority a normalised spelling names, `Medium` when it names none. */
  function Lookup(v: string): (p: Priority)
    ensures p == Low <==> IsAlias(Low, v)
    ensures p == High <==> IsAlias(High, v)
    ensures p == Medium <==> !IsAlias(Low, v) && !IsAlias(High, v)
  {
    if IsAlias(Low, v) then Low
    else if IsAlias(Medium, v) then Medium
    else if IsAlias(High, v) then High
    else Medium
  }

  /**
    `Priority.from_str`: absent or empty text is `Medium`; otherwise the text is
    stripped and lower-cased and looked up among the aliases, with `Medium` for
    anything unrecognised.
   */
  function FromStr(value: Option<string>): (p: Priority)
    ensures value == None || value == Some("") ==> p == Medium
    ensures value.Some? && value.value != "" ==>
      (p == Low <==> IsAlias(Low, Normalize(value.value))) &&
      (p == High <==> IsAlias(High, Normalize(value.value)))
  {
    if value.None? || value.value == "" then Medium
    else Lookup(Normalize(value.value))
  }

  /** Parsing a priority's own value gives that priority back. */
  lemma FromStrOfValue(p: Priority)
    ensures FromStr(Some(p.Value())) == p
  {
    StripUnpadded(p.Value());
    assert Normalize(p.Value()) == p.Value();
    assert IsAlias(p, p.Value());
  }

  /** The parser ignores ASCII case. */
  lemma FromStrIgnoresCase(s: string, t: string)
    requires Lower(s) == Lower(t)
    ensures FromStr(Some(s)) == FromStr(Some(t))
  {
    NormalizeIgnoresCase(s, t);
  }

  /** The parser ignores surrounding whitespace. */
  lemma FromStrIgnoresPadding(w: string, s: string, w': string)
    requires AllSpace(w) && AllSpace(w')
    ensures FromStr(Some(w + s + w')) == FromStr(Some(s))
  {
    StripIgnoresPadding(w, s, w');
    if s == "" {
      assert Normalize(w + s + w') == "";
    }
  }

  /** An upper-case alias: `"HI"` is `High`. */
  lemma FromStrUpperHi()
    ensures FromStr(Some("HI")) == High
  {
    assert Lower("HI") == "hi" by {
      var n := Lower("HI");
      assert n[0] == 'h' && n[1] == 'i';
    }
    assert Strip("HI") == "HI" by {
      StripUnpadded("HI");
    }
  }

  /** A capitalised alias: `"Low"` is `Low`. */
  lemma FromStrCapitalLow()
    ensures FromStr(Some("Low")) == Low
  {
    assert Lower("Low") == "low" by {
      var n := Lower("Low");
      assert n[0] == 'l' && n[1] == 'o' && n[2] == 'w';
    }
    assert Strip("Low") == "Low" by {
      StripUnpadded("Low");
    }
  }

  /** A capitalised alias with any whitespace around it, as in `" Low "`, is `Low`. */
  lemma FromStrPaddedLow(w: string, w': string)
    requires AllSpace(w) && AllSpace(w')
    ensures FromStr(Some(w + "Low" + w')) == Low
  {
    FromStrCapitalLow();
    FromStrIgnoresPadding(w, "Low", w');
  }

  /** Unknown text falls back to `Medium`. */
  lemma FromStrBogus()
    ensures FromStr(Some("bogus")) == Medium
  {
    assert Lower("bogus") == "bogus";
    assert Strip("bogus") == "bogus" by {
      StripUnpadded("bogus");
    }
  }
}

=== FILE: registry.dfy ===
/**
  `TaskManager`: the in-memory task list and the next id to hand out. Each
  operation returns the new manager, its result and the snapshot it saved:
  `saved == Some(tasks)` means `save_tasks` was called once with exactly that
  list, `saved == None` means storage was not touched.
 */
module Registry {
  import opened Wrappers
  import opened Priorities
  import opened Tasks

  datatype Manager = Manager(tasks: seq<Task>, nextId: int)

  datatype Outcome<R> = Outcome(manager: Manager, result: R, saved: Option<seq<Task>>)

  /** The `priority` argument of `add_task`: a `Priority`, or text (possibly `None`) for `from_str`. */
  datatype PriorityArg = Given(priority: Priority) | Raw(text: Option<string>)

  predicate HasId(tasks: seq<Task>, id: int) {
    exists i :: 0 <= i < |tasks| && tasks[i].id == id
  }

  /** `k` is the position of the first task with the id. */
  predicate IsFirst(tasks: seq<Task>, id: int, k: int) {
    && 0 <= k < |tasks|
    && tasks[k].id == id
    && forall j :: 0 <= j < k ==> tasks[j].id != id
  }

  /** Every task id is below the next id to hand out. */
  predicate IdsBelowNext(m: Manager) {
    forall i :: 0 <= i < |m.tasks| ==> m.tasks[i].id < m.nextId
  }

  predicate UniqueIds(tasks: seq<Task>) {
    forall i, j :: 0 <= i < j < |tasks| ==> tasks[i].id != tasks[j].id
  }

  // ---------------------------------------------------------------------------
  // __init__
  // ---------------------------------------------------------------------------

  /** The largest id of a non-empty list. */
  function MaxId(tasks: seq<Task>): (m: int)
    requires |tasks| > 0
    ensures forall i :: 0 <= i < |tasks| ==> tasks[i].id <= m
    ensures exists i :: 0 <= i < |tasks| && tasks[i].id == m
    decreases |tasks|
  {
    if |tasks| == 1 then tasks[0].id
    else
      var rest := MaxId(tasks[1..]);
      if tasks[0].id >= rest then tasks[0].id else rest
  }

  /** A task whose id no other task exceeds holds the largest id. */
  lemma MaxIdIsTop(tasks: seq<Task>, k: int)
    requires 0 <= k < |tasks|
    requires forall i :: 0 <= i < |tasks| ==> tasks[i].id <= tasks[k].id
    ensures MaxId(tasks) == tasks[k].id
  {
  }

  /** `TaskManager(storage)` over the loaded tasks: the next id is one past the largest, or 1. */
  function Init(loaded: seq<Task>): (m: Manager)
    ensures m.tasks == loaded
    ensures IdsBelowNext(m)
    ensures |loaded| == 0 ==> m.nextId == 1
    ensures |loaded| > 0 ==> HasId(loaded, m.nextId - 1)
  {
    Manager(loaded, (if |loaded| == 0 then 0 else MaxId(loaded)) + 1)
  }

  // ---------------------------------------------------------------------------
  // add_task, list_tasks, get_task_by_id
  // ---------------------------------------------------------------------------

  /** A `Priority` is taken as is; anything else goes through `from_str`. */
  function ResolvePriority(arg: PriorityArg): (p: Priority)
    ensures arg.Given? ==> p == arg.priority
    ensures arg == Raw(None) ==> p == Medium
    ensures arg.Raw? ==> p == FromStr(arg.text)
  {
    match arg
    case Given(p) => p
    case Raw(text) => FromStr(text)
  }

  /** Passing a priority's text value resolves to the same priority as passing the priority. */
  lemma ResolveValueAsGiven(q: Priority)
    ensures ResolvePriority(Raw(Some(q.Value()))) == ResolvePriority(Given(q))
  {
    FromStrOfValue(q);
  }

  /**
    `add_task`: the new task takes the next id, is not completed, goes at the
    end of the list, and the whole new list is saved once.
   */
  function AddTask(m: Manager, description: string, dueDate: Option<string>, priority: PriorityArg): (o: Outcome<Task>)
    ensures o.result.id == m.nextId && !o.result.completed
    ensures o.result.description == description && o.result.dueDate == dueDate
    ensures o.result.priority == ResolvePriority(priority)
    ensures o.manager.tasks == m.tasks + [o.result]
    ensures o.manager.nextId == m.nextId + 1
    ensures o.saved == Some(o.manager.tasks)
  {
    var task := Task(m.nextId, description, dueDate, false, ResolvePriority(priority));
    var tasks := m.tasks + [task];
    Outcome(Manager(tasks, m.nextId + 1), task, Some(tasks))
  }

  /**
    Restarting from the list an add leaves behind gives back the running
    manager: the new task has the largest id, so the next id agrees.
   */
  lemma InitAfterAdd(m: Manager, d: string, due: Option<string>, p: PriorityArg)
    requires IdsBelowNext(m)
    ensures Init(AddTask(m, d, due, p).manager.tasks) == AddTask(m, d, due, p).manager
  {
    var tasks := AddTask(m, d, due, p).manager.tasks;
    var last := |m.tasks|;
    forall i | 0 <= i < |tasks|
      ensures tasks[i].id <= tasks[last].id
    {
      if i < last {
        assert tasks[i] == m.tasks[i];
      }
    }
    MaxIdIsTop(tasks, last);
  }

  /** `list_tasks`: a copy of the tasks, unfiltered and unsorted; `ListAfterAdds` states the order. */
  function ListTasks(m: Manager): seq<Task> {
    m.tasks
  }

  /** The position of the first task with the id, if any. */
  function FirstIndex(tasks: seq<Task>, id: int): (k: Option<nat>)
    ensures k.None? <==> !HasId(tasks, id)
    ensures k.Some? ==> IsFirst(tasks, id, k.value)
    decreases |tasks|
  {
    if |tasks| == 0 then None
    else if tasks[0].id == id then Some(0)
    else
      match FirstIndex(tasks[1..], id)
      case None => None
      case Some(j) => Some(j + 1)
  }

  /** `get_task_by_id`: the first task with the id, or `None`. */
  function GetTaskById(m: Manager, id: int): (r: Option<Task>)
    ensures r.None? <==> !HasId(m.tasks, id)
    ensures r.Some? ==> exists k :: IsFirst(m.tasks, id, k) && r.value == m.tasks[k]
  {
    match FirstIndex(m.tasks, id)
    case None => None
    case Some(k) => Some(m.tasks[k])
  }

  // ---------------------------------------------------------------------------
  // mark_task_completed
  // ---------------------------------------------------------------------------

  /**
    `mark_task_completed`: with no task of that id, false and nothing changes or
    is saved; otherwise the first task with the id is completed, every other
    task stays as it was, and the list is saved once.
   */
  function MarkTaskCompleted(m: Manager, id: int): (o: Outcome<bool>)
    ensures o.result <==> HasId(m.tasks, id)
    ensures !o.result ==> o.manager == m && o.saved == None
    ensures o.result ==> o.saved == Some(o.manager.tasks)
    ensures o.manager.nextId == m.nextId && |o.manager.tasks| == |m.tasks|
    ensures forall i :: 0 <= i < |m.tasks| ==>
      o.manager.tasks[i] == if IsFirst(m.tasks, id, i) then MarkCompleted(m.tasks[i]) else m.tasks[i]
  {
    match FirstIndex(m.tasks, id)
    case None => Outcome(m, false, None)
    case Some(k) =>
      var tasks := m.tasks[k := MarkCompleted(m.tasks[k])];
      Outcome(Manager(tasks, m.nextId), true, Some(tasks))
  }

  // ---------------------------------------------------------------------------
  // remove_task
  // ---------------------------------------------------------------------------

  /** The list comprehension of `remove_task`: every task whose id differs, in order. */
  function Without(tasks: seq<Task>, id: int): (r: seq<Task>)
    ensures |r| <= |tasks|
    ensures forall t :: t in r ==> t in tasks && t.id != id
    ensures forall t :: t in tasks && t.id != id ==> t in r
    ensures |r| == |tasks| <==> !HasId(tasks, id)
    decreases |tasks|
  {
    if |tasks| == 0 then []
    else
      var rest := Without(tasks[1..], id);
      if tasks[0].id != id then [tasks[0]] + rest else rest
  }

  /** Filtering keeps order: it distributes over concatenation. */
  lemma {:induction false} WithoutAppend(a: seq<Task>, b: seq<Task>, id: int)
    ensures Without(a + b, id) == Without(a, id) + Without(b, id)
    decreases |a|
  {
    if |a| > 0 {
      var more := a[1..];
      assert a == [a[0]] + more;
      assert a + b == [a[0]] + (more + b);
      WithoutCons(a[0], more, id);
      WithoutCons(a[0], more + b, id);
      assert Without(more + b, id) == Without(more, id) + Without(b, id) by { WithoutAppend(more, b, id); }
      if a[0].id != id {
        assert [a[0]] + (Without(more, id) + Without(b, id)) == ([a[0]] + Without(more, id)) + Without(b, id);
      } else {
        assert [] + Without(more, id) == Without(more, id);
      }
    } else {
      assert a + b == b;
    }
  }

  /** The first task is filtered on its own, ahead of the rest. */
  lemma WithoutCons(t: Task, rest: seq<Task>, id: int)
    ensures Without([t] + rest, id) == (if t.id != id then [t] else []) + Without(rest, id)
  {
    assert ([t] + rest)[1..] == rest;
  }

  /** Filtering a list with no match is the identity. */
  lemma {:induction false} WithoutNoMatch(tasks: seq<Task>, id: int)
    requires !HasId(tasks, id)
    ensures Without(tasks, id) == tasks
    decreases |tasks|
  {
    if |tasks| > 0 {
      assert !HasId(tasks[1..], id) by {
        forall i | 0 <= i < |tasks[1..]|
          ensures tasks[1..][i].id != id
        {
          assert tasks[1..][i] == tasks[i + 1];
        }
      }
      var more := tasks[1..];
      assert Without(more, id) == more by { WithoutNoMatch(more, id); }
      assert tasks[0].id != id;
      assert tasks == [tasks[0]] + more;
      WithoutCons(tasks[0], more, id);
    }
  }

  /**
    `remove_task`: every task with the id is dropped and the rest keep their
    order; false without a save exactly when nothing matched.
   */
  function RemoveTask(m: Manager, id: int): (o: Outcome<bool>)
    ensures o.result <==> HasId(m.tasks, id)
    ensures o.manager.tasks == Without(m.tasks, id)
    ensures o.manager.nextId == m.nextId
    ensures !o.result ==> o.manager == m && o.saved == None
    ensures o.result ==> o.saved == Some(o.manager.tasks)
  {
    var kept := Without(m.tasks, id);
    if |kept| == |m.tasks| then
      WithoutNoMatch(m.tasks, id);
      Outcome(m, false, None)
    else Outcome(Manager(kept, m.nextId), true, Some(kept))
  }

  // ---------------------------------------------------------------------------
  // Invariants over a session
  // ---------------------------------------------------------------------------

  datatype Op =
    | Add(description: string, dueDate: Option<string>, priority: PriorityArg)
    | Complete(id: int)
    | Remove(id: int)

  function Apply(m: Manager, op: Op): Manager {
    match op
    case Add(d, due, p) => AddTask(m, d, due, p).manager
    case Complete(id) => MarkTaskCompleted(m, id).manager
    case Remove(id) => RemoveTask(m, id).manager
  }

  /** The manager after a sequence of operations. */
  function Run(m: Manager, ops: seq<Op>): Manager
    decreases |ops|
  {
    if |ops| == 0 then m else Run(Apply(m, ops[0]), ops[1..])
  }

  /** Every operation keeps all ids below the next id, duplicated ids or not. */
  lemma ApplyKeepsIdsBelowNext(m: Manager, op: Op)
    requires IdsBelowNext(m)
    ensures IdsBelowNext(Apply(m, op))
  {
    match op
    case Add(d, due, p) =>
    case Complete(id) =>
    case Remove(id) =>
      var kept := Apply(m, op).tasks;
      forall i | 0 <= i < |kept|
        ensures kept[i].id < m.nextId
      {
        assert kept[i] in m.tasks;
      }
  }

  /** Every operation keeps all ids below the next id and keeps ids unique. */
  lemma ApplyKeepsInvariants(m: Manager, op: Op)
    requires IdsBelowNext(m) && UniqueIds(m.tasks)
    ensures IdsBelowNext(Apply(m, op)) && UniqueIds(Apply(m, op).tasks)
    ensures Apply(m, op).nextId >= m.nextId
  {
    ApplyKeepsIdsBelowNext(m, op);
    match op
    case Add(d, due, p) =>
    case Complete(id) =>
    case Remove(id) =>
      WithoutKeepsInvariants(m.tasks, id, m.nextId);
  }

  lemma {:induction false} WithoutKeepsInvariants(tasks: seq<Task>, id: int, next: int)
    requires forall i :: 0 <= i < |tasks| ==> tasks[i].id < next
    requires UniqueIds(tasks)
    ensures forall i :: 0 <= i < |Without(tasks, id)| ==> Without(tasks, id)[i].id < next
    ensures UniqueIds(Without(tasks, id))
    decreases |tasks|
  {
    if |tasks| > 0 {
      WithoutKeepsInvariants(tasks[1..], id, next);
      var rest := Without(tasks[1..], id);
      if tasks[0].id != id {
        forall j | 0 <= j < |rest|
          ensures rest[j].id != tasks[0].id
        {
          assert rest[j] in tasks[1..];
        }
      }
    }
  }

  /** Over a whole session the invariants hold and the next id never goes down. */
  lemma {:induction false} RunKeepsInvariants(m: Manager, ops: seq<Op>)
    requires IdsBelowNext(m) && UniqueIds(m.tasks)
    ensures IdsBelowNext(Run(m, ops)) && UniqueIds(Run(m, ops).tasks)
    ensures Run(m, ops).nextId >= m.nextId
    decreases |ops|
  {
    if |ops| > 0 {
      ApplyKeepsInvariants(m, ops[0]);
      RunKeepsInvariants(Apply(m, ops[0]), ops[1..]);
    }
  }

  /** Over a whole session every id stays below the next id, whatever the loaded file held. */
  lemma {:induction false} RunKeepsIdsBelowNext(m: Manager, ops: seq<Op>)
    requires IdsBelowNext(m)
    ensures IdsBelowNext(Run(m, ops))
    decreases |ops|
  {
    if |ops| > 0 {
      ApplyKeepsIdsBelowNext(m, ops[0]);
      RunKeepsIdsBelowNext(Apply(m, ops[0]), ops[1..]);
    }
  }

  /** A session made only of `add_task` calls. */
  predicate AllAdds(ops: seq<Op>) {
    forall k :: 0 <= k < |ops| ==> ops[k].Add?
  }

  /** The task an `Add` creates when the next id is `id`. */
  function AddedTask(id: int, op: Op): Task
    requires op.Add?
  {
    Task(id, op.description, op.dueDate, false, ResolvePriority(op.priority))
  }

  /** The rest of an all-adds session is again all adds. */
  lemma AllAddsTail(ops: seq<Op>)
    requires |ops| > 0 && AllAdds(ops)
    ensures ops[0].Add? && AllAdds(ops[1..])
  {
    forall k | 0 <= k < |ops| - 1
      ensures ops[1..][k].Add?
    {
      assert ops[1..][k] == ops[k + 1];
    }
  }

  /** A run starting with an add continues from the manager that add leaves. */
  lemma RunFirstAdd(m: Manager, ops: seq<Op>)
    requires |ops| > 0 && ops[0].Add?
    ensures Run(m, ops) == Run(Manager(m.tasks + [AddedTask(m.nextId, ops[0])], m.nextId + 1), ops[1..])
  {
    assert Apply(m, ops[0]) == Manager(m.tasks + [AddedTask(m.nextId, ops[0])], m.nextId + 1);
  }

  /** Moving the first add's task into the prefix shifts the other positions by one. */
  lemma ShiftAdded(m: Manager, m1: Manager, r: seq<Task>, ops: seq<Op>)
    requires |ops| > 0 && AllAdds(ops)
    requires m1 == Manager(m.tasks + [AddedTask(m.nextId, ops[0])], m.nextId + 1)
    requires |r| == |m1.tasks| + |ops[1..]| && r[..|m1.tasks|] == m1.tasks
    requires forall k :: 0 <= k < |ops[1..]| ==> r[|m1.tasks| + k] == AddedTask(m1.nextId + k, ops[1..][k])
    ensures |r| == |m.tasks| + |ops| && r[..|m.tasks|] == m.tasks
    ensures forall k :: 0 <= k < |ops| ==> r[|m.tasks| + k] == AddedTask(m.nextId + k, ops[k])
  {
    var n := |m.tasks|;
    assert r[..n] == r[..|m1.tasks|][..n];
    assert r[n] == r[..|m1.tasks|][n];
    forall k | 0 < k < |ops|
      ensures r[n + k] == AddedTask(m.nextId + k, ops[k])
    {
      var j := k - 1;
      assert ops[1..][j] == ops[k];
      assert r[|m1.tasks| + j] == AddedTask(m1.nextId + j, ops[1..][j]);
    }
  }

  /** A run of adds, one `add_task` after another. */
  function AddAll(m: Manager, ops: seq<Op>): Manager
    requires AllAdds(ops)
    decreases |ops|
  {
    if |ops| == 0 then m
    else
      AllAddsTail(ops);
      AddAll(Manager(m.tasks + [AddedTask(m.nextId, ops[0])], m.nextId + 1), ops[1..])
  }

  /** On adds only, running the operations is adding one task after another. */
  lemma {:induction false} RunIsAddAll(m: Manager, ops: seq<Op>)
    requires AllAdds(ops)
    ensures Run(m, ops) == AddAll(m, ops)
    decreases |ops|
  {
    if |ops| > 0 {
      AllAddsTail(ops);
      RunFirstAdd(m, ops);
      RunIsAddAll(Manager(m.tasks + [AddedTask(m.nextId, ops[0])], m.nextId + 1), ops[1..]);
    }
  }

  /** Each add appends its task at the end, with the next id, and moves the next id up by one. */
  lemma {:induction false} AddAllAppends(m: Manager, ops: seq<Op>)
    requires AllAdds(ops)
    ensures var r := AddAll(m, ops).tasks;
            && |r| == |m.tasks| + |ops|
            && r[..|m.tasks|] == m.tasks
            && forall k :: 0 <= k < |ops| ==> r[|m.tasks| + k] == AddedTask(m.nextId + k, ops[k])
    ensures AddAll(m, ops).nextId == m.nextId + |ops|
    decreases |ops|
  {
    if |ops| > 0 {
      AllAddsTail(ops);
      var m1 := Manager(m.tasks + [AddedTask(m.nextId, ops[0])], m.nextId + 1);
      assert AddAll(m, ops) == AddAll(m1, ops[1..]);
      AddAllAppends(m1, ops[1..]);
      ShiftAdded(m, m1, AddAll(m1, ops[1..]).tasks, ops);
    }
  }

  /**
    `list_tasks` after a run of adds: the earlier tasks first, unchanged, then
    one new task per add in the order of the adds, with consecutive ids.
   */
  lemma ListAfterAdds(m: Manager, ops: seq<Op>)
    requires AllAdds(ops)
    ensures var r := ListTasks(Run(m, ops));
            && |r| == |m.tasks| + |ops|
            && r[..|m.tasks|] == ListTasks(m)
            && forall k :: 0 <= k < |ops| ==> r[|m.tasks| + k] == AddedTask(m.nextId + k, ops[k])
    ensures Run(m, ops).nextId == m.nextId + |ops|
  {
    RunIsAddAll(m, ops);
    AddAllAppends(m, ops);
  }

  /** The next id never goes down, whatever the tasks hold: duplicated ids included. */
  lemma {:induction false} RunNeverLowersNextId(m: Manager, ops: seq<Op>)
    ensures Run(m, ops).nextId >= m.nextId
    decreases |ops|
  {
    if |ops| > 0 {
      RunNeverLowersNextId(Apply(m, ops[0]), ops[1..]);
    }
  }

  /**
    Ids are never reused within a session: a task added after any later
    operations, removals included, gets a larger id than an earlier one. This
    holds from any start, even a file with duplicated ids.
   */
  lemma AssignedIdNeverReused(m: Manager, ops: seq<Op>, d: string, due: Option<string>, p: PriorityArg,
                              d': string, due': Option<string>, p': PriorityArg)
    ensures var first := AddTask(m, d, due, p);
            AddTask(Run(first.manager, ops), d', due', p').result.id > first.result.id
  {
    var first := AddTask(m, d, due, p);
    RunNeverLowersNextId(first.manager, ops);
  }
}

=== FILE: scenarios.dfy ===
/**
  The registry and the file storage together: the start-up, restart and
  end-to-end behaviour of a `TaskManager` over a `FileTaskStorage`.
 */
module Scenarios {
  import opened Wrappers
  import opened Priorities
  import opened Tasks
  import opened Codec
  import opened Storage
  import opened Registry

  /** Starting from a missing file gives no tasks and next id 1. */
  lemma FreshStart()
    ensures Init(LoadTasks(None)) == Manager([], 1)
  {
  }

  /** Stored ids 3, 7 and 2 make the next id 8, and the next task added gets id 8. */
  lemma NextIdAfterStoredIds(loaded: seq<Task>)
    requires |loaded| == 3 && loaded[0].id == 3 && loaded[1].id == 7 && loaded[2].id == 2
    ensures Init(loaded).nextId == 8
    ensures AddTask(Init(loaded), "next", None, Raw(None)).result.id == 8
  {
  }

  /** Text priorities are parsed leniently: `"HI"` is `High`, `"bogus"` is `Medium`. */
  lemma AddWithTextPriority(m: Manager, d: string, due: Option<string>)
    ensures AddTask(m, d, due, Raw(Some("HI"))).result.priority == High
    ensures AddTask(m, d, due, Raw(Some("bogus"))).result.priority == Medium
  {
    FromStrUpperHi();
    FromStrBogus();
  }

  /**
    Start empty, add "Buy milk" with priority "low": one pending task with id 1
    and priority `Low`. Completing task 1 then completes it.
   */
  lemma EndToEnd()
    ensures var m0 := Init([]);
            var added := AddTask(m0, "Buy milk", None, Raw(Some("low")));
            var completed := MarkTaskCompleted(added.manager, 1);
            && ListTasks(added.manager) == [Task(1, "Buy milk", None, false, Low)]
            && completed.result
            && ListTasks(completed.manager)[0].completed
  {
    FromStrOfValue(Low);
    var added := AddTask(Init([]), "Buy milk", None, Raw(Some("low")));
    assert IsFirst(added.manager.tasks, 1, 0);
  }

  /**
    After an add, the file written holds the new list, and a manager restarted
    from that file is the same as the running one.
   */
  lemma RestartAfterAdd(m: Manager, d: string, due: Option<string>, p: PriorityArg)
    requires IdsBelowNext(m)
    requires forall i :: 0 <= i < |m.tasks| ==> Persistable(m.tasks[i])
    requires Persistable(Task(m.nextId, d, due, false, ResolvePriority(p)))
    ensures var o := AddTask(m, d, due, p);
            && LoadTasks(Some(SaveTasks(o.saved.value))) == o.manager.tasks
            && Init(LoadTasks(Some(SaveTasks(o.saved.value)))) == o.manager
  {
    var o := AddTask(m, d, due, p);
    AddKeepsPersistable(m, d, due, p);
    SaveLoadRoundTrip(o.manager.tasks);
    InitAfterAdd(m, d, due, p);
  }

  /** Adding a persistable task to persistable tasks leaves only persistable tasks. */
  lemma AddKeepsPersistable(m: Manager, d: string, due: Option<string>, p: PriorityArg)
    requires forall i :: 0 <= i < |m.tasks| ==> Persistable(m.tasks[i])
    requires Persistable(Task(m.nextId, d, due, false, ResolvePriority(p)))
    ensures var tasks := AddTask(m, d, due, p).manager.tasks;
            forall i :: 0 <= i < |tasks| ==> Persistable(tasks[i])
  {
    var tasks := AddTask(m, d, due, p).manager.tasks;
    forall i | 0 <= i < |tasks|
      ensures Persistable(tasks[i])
    {
      if i < |m.tasks| {
        assert tasks[i] == m.tasks[i];
      }
    }
  }

  /**
    After completing or removing a task, the file written holds the list in
    memory: loading it gives back exactly the manager's tasks.
   */
  lemma SavedFileMatchesMemory(m: Manager, id: int)
    requires forall i :: 0 <= i < |m.tasks| ==> Persistable(m.tasks[i])
    ensures var o := MarkTaskCompleted(m, id);
            o.saved.Some? ==> LoadTasks(Some(SaveTasks(o.saved.value))) == o.manager.tasks
    ensures var o := RemoveTask(m, id);
            o.saved.Some? ==> LoadTasks(Some(SaveTasks(o.saved.value))) == o.manager.tasks
  {
    var marked := MarkTaskCompleted(m, id).manager.tasks;
    assert forall i :: 0 <= i < |marked| ==> Persistable(marked[i]);
    SaveLoadRoundTrip(marked);
    var kept := RemoveTask(m, id).manager.tasks;
    assert forall i :: 0 <= i < |kept| ==> Persistable(kept[i]) by {
      forall i | 0 <= i < |kept|
        ensures Persistable(kept[i])
      {
        assert kept[i] in kept;
      }
    }
    SaveLoadRoundTrip(kept);
  }

  /**
    Ids are not reused within a session, but they are across a restart:
    removing the only task and restarting from the file hands out id 1 again,
    where the running manager would hand out 2.
   */
  lemma RestartReusesRemovedId()
    ensures var t := Task(1, "a", None, false, Medium);
            var o := RemoveTask(Init([t]), 1);
            && o.manager.nextId == 2
            && Init(LoadTasks(Some(SaveTasks(o.saved.value)))).nextId == 1
  {
    var t := Task(1, "a", None, false, Medium);
    var o := RemoveTask(Init([t]), 1);
    assert HasId([t], 1);
    assert o.manager.tasks == [];
    SaveLoadRoundTrip([]);
  }
}

=== FILE: storage.dfy ===
/**
  `FileTaskStorage`: the whole task file as text. `None` stands for a file that
  does not exist. Saving produces the complete new contents of the file; loading
  reads them back the way Python's text-mode file iteration does.
 */
module Storage {
  import opened Wrappers
  import opened Text
  import opened Numerals
  import opened Priorities
  import opened Tasks
  import opened Codec

  // ---------------------------------------------------------------------------
  // Reading text lines
  // ---------------------------------------------------------------------------

  /** Universal newlines: reading in text mode turns `\r\n` and a lone `\r` into `\n`. */
  function TranslateNewlines(raw: string): (text: string)
    ensures '\r' !in text
    ensures '\r' !in raw ==> text == raw
    decreases |raw|
  {
    if |raw| == 0 then []
    else if raw[0] == '\r' then
      "\n" + TranslateNewlines(if |raw| > 1 && raw[1] == '\n' then raw[2..] else raw[1..])
    else [raw[0]] + TranslateNewlines(raw[1..])
  }

  /**
    Universal newlines as two replacements: every `\r\n` becomes `\n`, then
    every remaining `\r` becomes `\n`.
   */
  lemma {:induction false} TranslateNewlinesIsReplace(raw: string)
    ensures TranslateNewlines(raw) == Replace(Replace(raw, "\r\n", "\n"), "\r", "\n")
    decreases |raw|
  {
    if |raw| > 0 {
      var c := raw[0];
      if c == '\r' && |raw| > 1 && raw[1] == '\n' {
        assert "\r\n" <= raw;
        TranslateNewlinesIsReplace(raw[2..]);
        var once := Replace(raw[2..], "\r\n", "\n");
        assert Replace(raw, "\r\n", "\n") == "\n" + once;
        assert Replace("\n" + once, "\r", "\n") == "\n" + Replace(once, "\r", "\n") by {
          assert ("\n" + once)[1..] == once;
        }
      } else {
        TranslateNewlinesIsReplace(raw[1..]);
        var once := Replace(raw[1..], "\r\n", "\n");
        assert !("\r\n" <= raw);
        assert Replace(raw, "\r\n", "\n") == [c] + once;
        assert ([c] + once)[1..] == once;
        if c == '\r' {
          assert Replace([c] + once, "\r", "\n") == "\n" + Replace(once, "\r", "\n");
        } else {
          assert Replace([c] + once, "\r", "\n") == [c] + Replace(once, "\r", "\n");
        }
      }
    }
  }

  /** The length of the first line of `text`, its `\n` included when it has one. */
  function FirstLineLength(text: string): (k: nat)
    requires |text| > 0
    ensures 0 < k <= |text|
    ensures '\n' !in text[..k - 1]
    ensures k < |text| ==> text[k - 1] == '\n'
    decreases |text|
  {
    if text[0] == '\n' || |text| == 1 then 1 else 1 + FirstLineLength(text[1..])
  }

  /** The lines put back together, as `"".join(lines)`. */
  function Concat(lines: seq<string>): string
    decreases |lines|
  {
    if |lines| == 0 then [] else lines[0] + Concat(lines[1..])
  }

  /**
    `for line in f`: the lines of the text, in order and together making up
    the whole text, each ending in `\n` except possibly the last.
   */
  function ReadLines(text: string): (lines: seq<string>)
    ensures Concat(lines) == text
    ensures forall i :: 0 <= i < |lines| ==> |lines[i]| > 0
    ensures forall i :: 0 <= i < |lines| - 1 ==> lines[i][|lines[i]| - 1] == '\n'
    ensures forall i :: 0 <= i < |lines| ==> '\n' !in lines[i][..|lines[i]| - 1]
    ensures '\r' !in text ==> forall i :: 0 <= i < |lines| ==> '\r' !in lines[i]
    decreases |text|
  {
    if |text| == 0 then []
    else
      var k := FirstLineLength(text);
      assert text == text[..k] + text[k..];
      var rest := ReadLines(text[k..]);
      ReadStep(text, k, rest);
      [text[..k]] + rest
  }

  /** One more line in front keeps the shape `ReadLines` promises. */
  lemma PrependLine(line: string, rest: seq<string>)
    requires |line| > 0 && '\n' !in line[..|line| - 1]
    requires |rest| > 0 ==> line[|line| - 1] == '\n'
    requires forall i :: 0 <= i < |rest| ==> |rest[i]| > 0
    requires forall i :: 0 <= i < |rest| - 1 ==> rest[i][|rest[i]| - 1] == '\n'
    requires forall i :: 0 <= i < |rest| ==> '\n' !in rest[i][..|rest[i]| - 1]
    ensures var lines := [line] + rest;
      && (forall i :: 0 <= i < |lines| ==> |lines[i]| > 0)
      && (forall i :: 0 <= i < |lines| - 1 ==> lines[i][|lines[i]| - 1] == '\n')
      && (forall i :: 0 <= i < |lines| ==> '\n' !in lines[i][..|lines[i]| - 1])
    ensures '\r' !in line && (forall i :: 0 <= i < |rest| ==> '\r' !in rest[i]) ==>
      forall i :: 0 <= i < |[line] + rest| ==> '\r' !in ([line] + rest)[i]
  {
    var lines := [line] + rest;
    assert forall i :: 0 < i < |lines| ==> lines[i] == rest[i - 1];
  }

  /** The first line in front of the lines of the rest reads the whole text. */
  lemma ReadStep(text: string, k: int, rest: seq<string>)
    requires 0 < k <= |text| && '\n' !in text[..k - 1] && (k < |text| ==> text[k - 1] == '\n')
    requires Concat(rest) == text[k..]
    requires forall i :: 0 <= i < |rest| ==> |rest[i]| > 0
    requires forall i :: 0 <= i < |rest| - 1 ==> rest[i][|rest[i]| - 1] == '\n'
    requires forall i :: 0 <= i < |rest| ==> '\n' !in rest[i][..|rest[i]| - 1]
    requires '\r' !in text[k..] ==> forall i :: 0 <= i < |rest| ==> '\r' !in rest[i]
    ensures var lines := [text[..k]] + rest;
      && Concat(lines) == text
      && (forall i :: 0 <= i < |lines| ==> |lines[i]| > 0)
      && (forall i :: 0 <= i < |lines| - 1 ==> lines[i][|lines[i]| - 1] == '\n')
      && (forall i :: 0 <= i < |lines| ==> '\n' !in lines[i][..|lines[i]| - 1])
      && ('\r' !in text ==> forall i :: 0 <= i < |lines| ==> '\r' !in lines[i])
  {
    var line := text[..k];
    assert line[..|line| - 1] == text[..k - 1];
    assert text == line + text[k..];
    if |rest| > 0 {
      assert Concat(rest) == rest[0] + Concat(rest[1..]);
    }
    PrependLine(line, rest);
    assert ([line] + rest)[1..] == rest;
  }

  lemma {:induction false} FirstLineLengthOfLine(line: string, rest: string)
    requires '\n' !in line
    ensures FirstLineLength(line + "\n" + rest) == |line| + 1
    decreases |line|
  {
    if |line| > 0 {
      assert (line + "\n" + rest)[1..] == line[1..] + "\n" + rest;
      FirstLineLengthOfLine(line[1..], rest);
    }
  }

  /** A line without a newline, followed by `\n`, is read back as one line. */
  lemma ReadLinesOfLine(line: string, rest: string)
    requires '\n' !in line
    ensures ReadLines(line + "\n" + rest) == [line + "\n"] + ReadLines(rest)
  {
    var text := line + "\n" + rest;
    FirstLineLengthOfLine(line, rest);
    assert text[..|line| + 1] == line + "\n";
    assert text[|line| + 1..] == rest;
  }

  // ---------------------------------------------------------------------------
  // load_tasks and save_tasks
  // ---------------------------------------------------------------------------

  /** The tasks of the lines that decode, in the order of the lines; the other lines are dropped. */
  function LoadLines(lines: seq<string>): (tasks: seq<Task>)
    ensures |tasks| <= |lines|
    decreases |lines|
  {
    if |lines| == 0 then []
    else
      var rest := LoadLines(lines[1..]);
      match DecodeLine(lines[0])
      case Some(t) => [t] + rest
      case None => rest
  }

  /** Every loaded task is the decoding of one of the lines. */
  lemma {:induction false} LoadedTaskHasLine(lines: seq<string>, t: Task) returns (i: nat)
    requires t in LoadLines(lines)
    ensures i < |lines| && DecodeLine(lines[i]) == Some(t)
    decreases |lines|
  {
    if DecodeLine(lines[0]) == Some(t) {
      i := 0;
    } else {
      var j := LoadedTaskHasLine(lines[1..], t);
      i := j + 1;
    }
  }

  /**
    `load_tasks`: a missing file is no tasks at all. Whatever an existing file
    holds, every task loaded from it can be saved and loaded back unchanged.
   */
  function LoadTasks(file: Option<string>): (tasks: seq<Task>)
    ensures file.None? ==> tasks == []
    ensures forall t :: t in tasks ==> Persistable(t)
  {
    match file
    case None => []
    case Some(raw) =>
      LoadedTasksArePersistable(raw);
      LoadLines(ReadLines(TranslateNewlines(raw)))
  }

  /**
    `save_tasks`: the new contents of the file, one encoded line per task, each
    ending in `\n`; empty exactly for no tasks.
   */
  function SaveTasks(tasks: seq<Task>): (text: string)
    ensures |text| == 0 <==> |tasks| == 0
    ensures |text| > 0 ==> text[|text| - 1] == '\n'
    decreases |tasks|
  {
    if |tasks| == 0 then [] else EncodeLine(tasks[0]) + "\n" + SaveTasks(tasks[1..])
  }

  /** Loading keeps order: the lines of a concatenation load as the two loads concatenated. */
  lemma {:induction false} LoadLinesAppend(a: seq<string>, b: seq<string>)
    ensures LoadLines(a + b) == LoadLines(a) + LoadLines(b)
    decreases |a|
  {
    if |a| > 0 {
      var more := a[1..];
      var head := match DecodeLine(a[0]) case Some(t) => [t] case None => [];
      assert LoadLines(a) == head + LoadLines(more) by {
        assert a == [a[0]] + more;
        LoadLinesCons(a[0], more);
      }
      assert LoadLines(a + b) == head + LoadLines(more + b) by {
        assert a + b == [a[0]] + (more + b);
        LoadLinesCons(a[0], more + b);
      }
      LoadLinesAppend(more, b);
      assert head + (LoadLines(more) + LoadLines(b)) == (head + LoadLines(more)) + LoadLines(b);
    } else {
      assert a + b == b;
    }
  }

  /** The first line loads on its own, ahead of the rest. */
  lemma LoadLinesCons(line: string, rest: seq<string>)
    ensures LoadLines([line] + rest) == (match DecodeLine(line) case Some(t) => [t] case None => []) + LoadLines(rest)
  {
    assert ([line] + rest)[1..] == rest;
  }

  /** A single line loads as its task when it decodes, and as nothing otherwise. */
  lemma LoadOneLine(line: string)
    ensures LoadLines([line]) == match DecodeLine(line) case Some(t) => [t] case None => []
  {
  }

  // ---------------------------------------------------------------------------
  // Round trip through the file
  // ---------------------------------------------------------------------------

  /**
    What a task needs to come back unchanged from the file: what its line needs,
    and no line break (`\n` or `\r`) in its description or due date.
   */
  predicate Persistable(t: Task) {
    && LineSafe(t)
    && '\n' !in t.description && '\r' !in t.description
    && (t.dueDate.Some? ==> '\n' !in t.dueDate.value && '\r' !in t.dueDate.value)
  }

  /** The line of a persistable task has no line-break characters. */
  lemma EncodeLineHasNoBreak(t: Task, c: char)
    requires Persistable(t)
    requires c == '\n' || c == '\r'
    ensures c !in EncodeLine(t)
  {
    var id, desc, due, flag, prio :=
      IntToString(t.id), Escape(t.description), DueDateText(t.dueDate), BoolText(t.completed), t.priority.Value();
    assert c !in id;
    assert c !in desc;
    assert c !in due;
    assert c !in flag by { if t.completed { assert flag == "True"; } else { assert flag == "False"; } }
    assert c !in prio by { match t.priority case Low => case Medium => case High => }
    var sep := [Separator];
    assert c !in id + sep + desc + sep;
    assert c !in id + sep + desc + sep + due + sep;
    assert c !in id + sep + desc + sep + due + sep + flag + sep;
    assert c !in id + sep + desc + sep + due + sep + flag + sep + prio;
  }

  lemma {:induction false} SaveTasksHasNoCarriageReturn(tasks: seq<Task>)
    requires forall i :: 0 <= i < |tasks| ==> Persistable(tasks[i])
    ensures '\r' !in SaveTasks(tasks)
    decreases |tasks|
  {
    if |tasks| > 0 {
      EncodeLineHasNoBreak(tasks[0], '\r');
      SaveTasksHasNoCarriageReturn(tasks[1..]);
    }
  }

  /** The first line read from a saved file is the first task's line. */
  lemma ReadSavedFirst(tasks: seq<Task>)
    requires |tasks| > 0 && Persistable(tasks[0])
    ensures ReadLines(SaveTasks(tasks)) == [EncodeLine(tasks[0]) + "\n"] + ReadLines(SaveTasks(tasks[1..]))
  {
    EncodeLineHasNoBreak(tasks[0], '\n');
    ReadLinesOfLine(EncodeLine(tasks[0]), SaveTasks(tasks[1..]));
  }

  lemma LoadLinesOfDecoded(line: string, rest: seq<string>, t: Task)
    requires DecodeLine(line) == Some(t)
    ensures LoadLines([line] + rest) == [t] + LoadLines(rest)
  {
    assert ([line] + rest)[1..] == rest;
  }

  /** The lines `save_tasks` writes: each task's encoded line with its terminator. */
  function SavedLines(tasks: seq<Task>): (lines: seq<string>)
    ensures |lines| == |tasks|
    decreases |tasks|
  {
    if |tasks| == 0 then [] else [EncodeLine(tasks[0]) + "\n"] + SavedLines(tasks[1..])
  }

  /** The file `save_tasks` writes is its lines, one per task, put together in order. */
  lemma {:induction false} SaveTasksJoinsSavedLines(tasks: seq<Task>)
    ensures SaveTasks(tasks) == Concat(SavedLines(tasks))
    decreases |tasks|
  {
    if |tasks| > 0 {
      var line, rest := EncodeLine(tasks[0]) + "\n", SavedLines(tasks[1..]);
      assert SavedLines(tasks) == [line] + rest;
      assert ([line] + rest)[1..] == rest;
      SaveTasksJoinsSavedLines(tasks[1..]);
    }
  }

  /** A saved file of persistable tasks reads back as exactly the lines written. */
  lemma {:induction false} ReadSavedLines(tasks: seq<Task>)
    requires forall i :: 0 <= i < |tasks| ==> Persistable(tasks[i])
    ensures ReadLines(SaveTasks(tasks)) == SavedLines(tasks)
    decreases |tasks|
  {
    if |tasks| > 0 {
      var more := tasks[1..];
      assert ReadLines(SaveTasks(more)) == SavedLines(more) by { ReadSavedLines(more); }
      ReadSavedFirst(tasks);
    }
  }

  /** The first saved line of a line-safe task loads as that task. */
  lemma LoadSavedFirst(tasks: seq<Task>)
    requires |tasks| > 0 && LineSafe(tasks[0])
    ensures LoadLines(SavedLines(tasks)) == [tasks[0]] + LoadLines(SavedLines(tasks[1..]))
  {
    var line, rest := EncodeLine(tasks[0]) + "\n", SavedLines(tasks[1..]);
    assert SavedLines(tasks) == [line] + rest;
    LineRoundTrip(tasks[0]);
    LoadLinesOfDecoded(line, rest, tasks[0]);
  }

  /** If the lines after the first load as the tasks after the first, all the lines load as all the tasks. */
  lemma LoadSavedStep(tasks: seq<Task>)
    requires |tasks| > 0 && LineSafe(tasks[0])
    requires LoadLines(SavedLines(tasks[1..])) == tasks[1..]
    ensures LoadLines(SavedLines(tasks)) == tasks
  {
    LoadSavedFirst(tasks);
    assert tasks == [tasks[0]] + tasks[1..];
  }

  /** The lines written for line-safe tasks load as those tasks. */
  lemma {:induction false} LoadSavedLines(tasks: seq<Task>)
    requires forall i :: 0 <= i < |tasks| ==> LineSafe(tasks[i])
    ensures LoadLines(SavedLines(tasks)) == tasks
    decreases |tasks|
  {
    if |tasks| > 0 {
      LoadSavedLines(tasks[1..]);
      LoadSavedStep(tasks);
    }
  }

  /** The text written for persistable tasks reads and decodes as those tasks. */
  lemma LoadSavedText(tasks: seq<Task>)
    requires forall i :: 0 <= i < |tasks| ==> Persistable(tasks[i])
    ensures LoadLines(ReadLines(SaveTasks(tasks))) == tasks
  {
    ReadSavedLines(tasks);
    LoadSavedLines(tasks);
  }

  /** Loading what `save_tasks` wrote gives back the same tasks in the same order. */
  lemma SaveLoadRoundTrip(tasks: seq<Task>)
    requires forall i :: 0 <= i < |tasks| ==> Persistable(tasks[i])
    ensures LoadTasks(Some(SaveTasks(tasks))) == tasks
  {
    SaveTasksHasNoCarriageReturn(tasks);
    LoadSavedText(tasks);
  }

  // ---------------------------------------------------------------------------
  // Where the file round trip breaks
  // ---------------------------------------------------------------------------

  /** A line with two fields is dropped. */
  lemma TwoFieldLineIsDropped(a: string, b: string)
    requires Separator !in a && Separator !in b && '\n' !in b
    ensures DecodeLine(a + [Separator] + b + "\n") == None
  {
    var line := a + [Separator] + b;
    StripTrailingOne(line, '\n');
    SplitConcat(a, Separator, b);
    SplitNoSeparator(a, Separator);
    SplitNoSeparator(b, Separator);
  }

  /** A line with no `\n` before its end and no `\r` has neither once its trailing `\n`s are removed. */
  lemma LineBodyHasNoBreak(line: string, c: char)
    requires |line| > 0 && '\n' !in line[..|line| - 1] && '\r' !in line
    requires c == '\n' || c == '\r'
    ensures c !in StripTrailing(line, '\n')
  {
    var body := StripTrailing(line, '\n');
    forall i | 0 <= i < |body|
      ensures body[i] != c
    {
      assert body[i] == line[i];
      if i < |line| - 1 {
        assert line[i] == line[..|line| - 1][i];
      } else {
        assert line[i] in line;
      }
    }
  }

  /** The text a line decodes from, its terminator removed, has no `\n` and no `\r`. */
  lemma ReadLineBodyHasNoBreak(text: string, i: int, c: char)
    requires '\r' !in text
    requires 0 <= i < |ReadLines(text)|
    requires c == '\n' || c == '\r'
    ensures c !in StripTrailing(ReadLines(text)[i], '\n')
  {
    LineBodyHasNoBreak(ReadLines(text)[i], c);
  }

  /**
    No task loaded from a file has a line break in its description or due date,
    whatever the file holds.
   */
  lemma LoadedTasksHaveNoLineBreak(raw: string, c: char)
    requires c == '\n' || c == '\r'
    ensures forall t :: t in LoadLines(ReadLines(TranslateNewlines(raw))) ==>
      c !in t.description && (t.dueDate.Some? ==> c !in t.dueDate.value)
  {
    var text := TranslateNewlines(raw);
    var lines := ReadLines(text);
    forall t | t in LoadLines(lines)
      ensures c !in t.description && (t.dueDate.Some? ==> c !in t.dueDate.value)
    {
      var i := LoadedTaskHasLine(lines, t);
      ReadLineBodyHasNoBreak(text, i, c);
      DecodedTaskKeepsOut(lines[i], c);
    }
  }

  /**
    A task whose description or due date holds a line break never comes back:
    saving a list that contains one and loading the file does not give the list.
   */
  lemma LineBreakIsNotRestored(tasks: seq<Task>, i: int, c: char)
    requires 0 <= i < |tasks|
    requires c == '\n' || c == '\r'
    requires c in tasks[i].description || (tasks[i].dueDate.Some? && c in tasks[i].dueDate.value)
    ensures LoadTasks(Some(SaveTasks(tasks))) != tasks
  {
    assert tasks[i] in tasks;
  }

  /** Every task loaded from a file, whatever the file holds, can be saved and loaded back unchanged. */
  lemma LoadedTasksArePersistable(raw: string)
    ensures forall t :: t in LoadLines(ReadLines(TranslateNewlines(raw))) ==> Persistable(t)
  {
    LoadedTasksHaveNoLineBreak(raw, '\n');
    LoadedTasksHaveNoLineBreak(raw, '\r');
    var lines := ReadLines(TranslateNewlines(raw));
    forall t | t in LoadLines(lines)
      ensures LineSafe(t)
    {
      var i := LoadedTaskHasLine(lines, t);
    }
  }

  /**
    Reloading is idempotent: saving whatever was loaded from any file and
    loading the result gives the same tasks, in the same order.
   */
  lemma ReloadIsIdempotent(file: Option<string>)
    ensures LoadTasks(Some(SaveTasks(LoadTasks(file)))) == LoadTasks(file)
  {
    var tasks := LoadTasks(file);
    assert forall i :: 0 <= i < |tasks| ==> Persistable(tasks[i]) by {
      forall i | 0 <= i < |tasks|
        ensures Persistable(tasks[i])
      {
        assert tasks[i] in tasks;
      }
    }
    SaveLoadRoundTrip(tasks);
  }

  /** Saving a list and loading the file gives the list back exactly when every task is persistable. */
  lemma SaveLoadRoundTripExactly(tasks: seq<Task>)
    ensures LoadTasks(Some(SaveTasks(tasks))) == tasks <==> forall i :: 0 <= i < |tasks| ==> Persistable(tasks[i])
  {
    if forall i :: 0 <= i < |tasks| ==> Persistable(tasks[i]) {
      SaveLoadRoundTrip(tasks);
    } else {
      var i :| 0 <= i < |tasks| && !Persistable(tasks[i]);
      assert tasks[i] in tasks;
    }
  }

  /** A well-formed line next to a line with two fields loads as exactly one task. */
  lemma MalformedLineIsSkipped(t: Task, a: string, b: string)
    requires LineSafe(t)
    requires Separator !in a && Separator !in b && '\n' !in b
    ensures LoadLines([EncodeLine(t) + "\n", a + [Separator] + b + "\n"]) == [t]
  {
    LineRoundTrip(t);
    TwoFieldLineIsDropped(a, b);
  }
}

=== FILE: task.dfy ===
/** The task record. */
module Tasks {
  import opened Wrappers
  import opened Priorities

  /**
    One to-do item. Tasks are values: the registry replaces a task to change it
    rather than mutating a shared object.
   */
  datatype Task = Task(
    id: int,
    description: string,
    dueDate: Option<string>,
    completed: bool,
    priority: Priority
  )

  /** `Task.mark_completed`: the task becomes completed and nothing else about it changes. */
  function MarkCompleted(t: Task): (r: Task)
    ensures r.completed
    ensures r.id == t.id && r.description == t.description
    ensures r.dueDate == t.dueDate && r.priority == t.priority
  {
    t.(completed := true)
  }
}

=== FILE: text.dfy ===
/**
  The string operations of Python's `str` that the task file format relies on:
  `strip()`, `lower()`, `replace(old, new)`, `split(sep)` and `sep.join(parts)`.
  Whitespace and case are restricted to ASCII.
 */
module Text {

  /** Python's `str.isspace` on the ASCII range: space, \t, \n, \v, \f, \r and \x1c-\x1f. */
  predicate IsSpace(c: char) {
    c == ' ' || ('\t' <= c <= '\r') || ('\U{1C}' <= c <= '\U{1F}')
  }

  predicate AllSpace(s: string) {
    forall i :: 0 <= i < |s| ==> IsSpace(s[i])
  }

  // ---------------------------------------------------------------------------
  // strip()
  // ---------------------------------------------------------------------------

  /** `s.lstrip()`: drops leading whitespace. */
  function StripLeft(s: string): (r: string)
    ensures |r| <= |s| && r == s[|s| - |r|..]
    ensures AllSpace(s[..|s| - |r|])
    ensures |r| > 0 ==> !IsSpace(r[0])
    decreases |s|
  {
    if |s| > 0 && IsSpace(s[0]) then StripLeft(s[1..]) else s
  }

  /** `s.rstrip()`: drops trailing whitespace. */
  function StripRight(s: string): (r: string)
    ensures |r| <= |s| && r == s[..|r|]
    ensures AllSpace(s[|r|..])
    ensures |r| > 0 ==> !IsSpace(r[|r| - 1])
    decreases |s|
  {
    if |s| > 0 && IsSpace(s[|s| - 1]) then StripRight(s[..|s| - 1]) else s
  }

  /** `s.strip()`: the text between the leading and the trailing whitespace. */
  function Strip(s: string): string {
    StripRight(StripLeft(s))
  }

  lemma {:induction false} StripLeftAfterSpace(w: string, x: string)
    requires AllSpace(w)
    ensures StripLeft(w + x) == StripLeft(x)
    decreases |w|
  {
    if |w| > 0 {
      assert (w + x)[1..] == w[1..] + x;
      StripLeftAfterSpace(w[1..], x);
    } else {
      assert w + x == x;
    }
  }

  lemma {:induction false} StripLeftBeforeSpace(x: string, w: string)
    requires AllSpace(w)
    ensures StripLeft(x + w) == if StripLeft(x) == [] then [] else StripLeft(x) + w
    decreases |x|
  {
    if |x| == 0 {
      assert x + w == w + [];
      StripLeftAfterSpace(w, []);
    } else if IsSpace(x[0]) {
      assert (x + w)[1..] == x[1..] + w;
      StripLeftBeforeSpace(x[1..], w);
    }
  }

  lemma {:induction false} StripRightBeforeSpace(y: string, w: string)
    requires AllSpace(w)
    ensures StripRight(y + w) == StripRight(y)
    decreases |w|
  {
    if |w| > 0 {
      assert (y + w)[..|y + w| - 1] == y + w[..|w| - 1];
      StripRightBeforeSpace(y, w[..|w| - 1]);
    } else {
      assert y + w == y;
    }
  }

  /** Whitespace on either side makes no difference to `strip()`. */
  lemma StripIgnoresPadding(w: string, s: string, w': string)
    requires AllSpace(w) && AllSpace(w')
    ensures Strip(w + s + w') == Strip(s)
  {
    assert w + s + w' == w + (s + w');
    assert StripLeft(w + s + w') == StripLeft(s + w') by {
      StripLeftAfterSpace(w, s + w');
    }
    StripLeftBeforeSpace(s, w');
    if StripLeft(s) != [] {
      StripRightBeforeSpace(StripLeft(s), w');
    }
  }

  /** A string that neither starts nor ends with whitespace is its own `strip()`. */
  lemma StripUnpadded(s: string)
    requires |s| > 0 && !IsSpace(s[0]) && !IsSpace(s[|s| - 1])
    ensures Strip(s) == s
  {
  }

  /** `s.rstrip(c)` for one character `c`: drops every trailing `c`. */
  function StripTrailing(s: string, c: char): (r: string)
    ensures r <= s
    ensures forall i :: |r| <= i < |s| ==> s[i] == c
    ensures |r| > 0 ==> r[|r| - 1] != c
    decreases |s|
  {
    if |s| > 0 && s[|s| - 1] == c then StripTrailing(s[..|s| - 1], c) else s
  }

  /** `rstrip(c)` removes a single trailing `c` from text that does not otherwise end in `c`. */
  lemma StripTrailingOne(x: string, c: char)
    requires |x| > 0 && x[|x| - 1] != c
    ensures StripTrailing(x + [c], c) == x
  {
    assert (x + [c])[..|x|] == x;
  }

  // ---------------------------------------------------------------------------
  // lower()
  // ---------------------------------------------------------------------------

  function LowerChar(c: char): char {
    if 'A' <= c <= 'Z' then (c as int + 32) as char else c
  }

  /** `s.lower()`, ASCII letters only. */
  function Lower(s: string): (r: string)
    ensures |r| == |s|
    ensures forall i :: 0 <= i < |s| ==> r[i] == LowerChar(s[i])
  {
    seq(|s|, i requires 0 <= i < |s| => LowerChar(s[i]))
  }

  /** `s.strip().lower()`, the normalisation used for flags and priorities. */
  function Normalize(s: string): string {
    Lower(Strip(s))
  }

  /** Lowering keeps a space first character and commutes with dropping it. */
  lemma LowerDropFirst(s: string)
    requires |s| > 0 && IsSpace(s[0])
    ensures Lower(s)[0] == s[0] && Lower(s)[1..] == Lower(s[1..])
  {
    var l, r := Lower(s)[1..], Lower(s[1..]);
    assert |l| == |r|;
    forall i | 0 <= i < |l|
      ensures l[i] == r[i]
    {
      assert l[i] == Lower(s)[i + 1];
    }
  }

  /** Lowering keeps a space last character and commutes with dropping it. */
  lemma LowerDropLast(s: string)
    requires |s| > 0 && IsSpace(s[|s| - 1])
    ensures Lower(s)[|s| - 1] == s[|s| - 1] && Lower(s)[..|s| - 1] == Lower(s[..|s| - 1])
  {
    var l, r := Lower(s)[..|s| - 1], Lower(s[..|s| - 1]);
    assert |l| == |r|;
    forall i | 0 <= i < |l|
      ensures l[i] == r[i]
    {
      assert l[i] == Lower(s)[i];
    }
  }

  lemma {:induction false} LowerStripLeft(s: string)
    ensures Lower(StripLeft(s)) == StripLeft(Lower(s))
    decreases |s|
  {
    if |s| > 0 && IsSpace(s[0]) {
      LowerDropFirst(s);
      LowerStripLeft(s[1..]);
    }
  }

  lemma {:induction false} LowerStripRight(s: string)
    ensures Lower(StripRight(s)) == StripRight(Lower(s))
    decreases |s|
  {
    if |s| > 0 && IsSpace(s[|s| - 1]) {
      LowerDropLast(s);
      LowerStripRight(s[..|s| - 1]);
    }
  }

  /** Strings equal up to ASCII case normalise to the same text. */
  lemma NormalizeIgnoresCase(s: string, t: string)
    requires Lower(s) == Lower(t)
    ensures Normalize(s) == Normalize(t)
  {
    LowerStripLeft(s);
    LowerStripLeft(t);
    LowerStripRight(StripLeft(s));
    LowerStripRight(StripLeft(t));
  }

  // ---------------------------------------------------------------------------
  // replace(old, new)
  // ---------------------------------------------------------------------------

  /** `pat` occurs somewhere in `s`. */
  predicate Occurs(pat: string, s: string)
    decreases |s|
  {
    pat <= s || (|s| > 0 && Occurs(pat, s[1..]))
  }

  /** A one-character pattern occurs exactly when the character is in the text. */
  lemma {:induction false} OccursOneChar(c: char, s: string)
    ensures Occurs([c], s) <==> c in s
    decreases |s|
  {
    if |s| > 0 {
      OccursOneChar(c, s[1..]);
      assert s == [s[0]] + s[1..];
    }
  }

  /** Text that lacks the first character of a pattern cannot contain the pattern. */
  lemma {:induction false} OccursNeedsFirstChar(pat: string, s: string)
    requires |pat| > 0 && pat[0] !in s
    ensures !Occurs(pat, s)
    decreases |s|
  {
    if |s| > 0 {
      OccursNeedsFirstChar(pat, s[1..]);
    }
  }

  /**
    `s.replace(pat, rep)`: every occurrence of `pat`, found left to right
    without overlap, is replaced by `rep`.
   */
  function Replace(s: string, pat: string, rep: string): (r: string)
    requires |pat| > 0
    ensures !Occurs(pat, s) ==> r == s
    ensures |pat| == 1 && pat[0] !in rep ==> pat[0] !in r
    ensures forall c :: c in r ==> c in s || c in rep
    decreases |s|
  {
    if |s| == 0 then []
    else if pat <= s then rep + Replace(s[|pat|..], pat, rep)
    else [s[0]] + Replace(s[1..], pat, rep)
  }

  // ---------------------------------------------------------------------------
  // split(sep) and sep.join(parts)
  // ---------------------------------------------------------------------------

  /** `sep.join(parts)`. */
  function Join(parts: seq<string>, sep: char): string
    decreases |parts|
  {
    if |parts| == 0 then []
    else if |parts| == 1 then parts[0]
    else parts[0] + [sep] + Join(parts[1..], sep)
  }

  /**
    `s.split(sep)` for a one-character separator: the pieces between the
    separators, so there is always one more piece than there are separators.
   */
  function Split(s: string, sep: char): (parts: seq<string>)
    ensures |parts| > 0
    ensures forall i :: 0 <= i < |parts| ==> sep !in parts[i]
    decreases |s|
  {
    if |s| == 0 then [[]]
    else
      var rest := Split(s[1..], sep);
      if s[0] == sep then [[]] + rest
      else [[s[0]] + rest[0]] + rest[1..]
  }

  /** `join` undoes `split`. */
  lemma {:induction false} JoinSplit(s: string, sep: char)
    ensures Join(Split(s, sep), sep) == s
    decreases |s|
  {
    if |s| > 0 {
      var rest := Split(s[1..], sep);
      JoinSplit(s[1..], sep);
      if s[0] != sep && |rest| > 1 {
        assert Join(Split(s, sep), sep) == [s[0]] + rest[0] + [sep] + Join(rest[1..], sep);
      }
    }
  }

  /** A character absent from the text is absent from every piece of it. */
  lemma {:induction false} SplitKeepsOut(s: string, sep: char, c: char)
    requires c !in s
    ensures forall i :: 0 <= i < |Split(s, sep)| ==> c !in Split(s, sep)[i]
    decreases |s|
  {
    if |s| > 0 {
      SplitKeepsOut(s[1..], sep, c);
    }
  }

  /** Splitting at one separator splits each side independently. */
  lemma {:induction false} SplitConcat(x: string, sep: char, y: string)
    ensures Split(x + [sep] + y, sep) == Split(x, sep) + Split(y, sep)
    decreases |x|
  {
    var s := x + [sep] + y;
    if |x| == 0 {
      assert s[1..] == y;
    } else {
      assert s[1..] == x[1..] + [sep] + y;
      SplitConcat(x[1..], sep, y);
    }
  }

  /** Text without the separator is one piece. */
  lemma {:induction false} SplitNoSeparator(x: string, sep: char)
    requires sep !in x
    ensures Split(x, sep) == [x]
    decreases |x|
  {
    if |x| > 0 {
      SplitNoSeparator(x[1..], sep);
      assert [x[0]] + x[1..] == x;
    }
  }

  /** Text with a separator splits into at least two pieces. */
  lemma SplitWithSeparator(x: string, sep: char)
    requires sep in x
    ensures |Split(x, sep)| >= 2
  {
    var i :| 0 <= i < |x| && x[i] == sep;
    assert x == x[..i] + [sep] + x[i + 1..];
    SplitConcat(x[..i], sep, x[i + 1..]);
  }

  /** `split` undoes `join` when no piece contains the separator. */
  lemma {:induction false} SplitJoin(parts: seq<string>, sep: char)
    requires |parts| > 0
    requires forall i :: 0 <= i < |parts| ==> sep !in parts[i]
    ensures Split(Join(parts, sep), sep) == parts
    decreases |parts|
  {
    SplitNoSeparator(parts[0], sep);
    if |parts| > 1 {
      SplitConcat(parts[0], sep, Join(parts[1..], sep));
      SplitJoin(parts[1..], sep);
      assert parts == [parts[0]] + parts[1..];
    }
  }
}

=== FILE: wrappers.dfy ===
/** Python's `Optional[T]`: a value that may be absent (`None`). */
module Wrappers {

  datatype Option<+T> = None | Some(value: T)
}
